=== FILE: README.md ===
# HireLocal core in Dafny

HireLocal is a chat-first directory for finding local service providers.
The core of its client is the following:

- The location service. It turns a device position into a `UserLocation` through a detailed reverse-geocode call, a coarse one and a coordinates-only fallback. It also parses typed locations, formats locations for display and for the chat backend, and keeps a one-slot cache.
- The chat screen's send path:
  - it rewrites "near me" into the user's location;
  - it asks for a location when none is known;
  - it hides old suggestion chips;
  - it normalises the backend reply into an AI message;
  - it reveals the reply character by character.
- The chat-session store: creating sessions, appending messages and taking the most recent ones.
- The saved-business service: saving with duplicate detection, owner-checked removal, reading both document layouts, and the client-side search filter.
- The saved-providers screen: loading, filtering by category and search, sorting by recency, removal, and the empty-state title.
- The business card: when the phone, website and rating rows appear, the `tel:` link, the `https://` prefix, and the review count.
- The phone formatter for wa.me links.
- The user-activity service: the per-user counters, the monthly reset, the search log and the "+N%" statistics.
- The profile screen's edit state: expanded sections, account toggles, dirty tracking, save, cancel and the password form.

Each source file is one Dafny module:

| module | file |
|---|---|
| `Location` | location.dfy |
| `ChatInterface` | chat_interface.dfy |
| `ChatSessions` | chat_sessions.dfy |
| `Businesses` | businesses.dfy |
| `SavedProviders` | saved_providers.dfy |
| `BusinessCard` | business_card.dfy |
| `PhoneFormat` | phone_format.dfy |
| `Activity` | activity.dfy |
| `ProfileScreen` | profile_screen.dfy |

Three support modules model JavaScript built-ins:

- `Text` (text.dfy): `trim`, `split`, `join`, ASCII `toLowerCase`, `includes`, and decimal rendering of numbers.
- `Seqs` (seqs.dfy): `filter` and a stable descending sort.
- `Wrappers` (wrappers.dfy): `Option` and `Result`.

Everything is a pure function over immutable data. The outside world is passed in as parameters:

- Firestore collections are maps from document id to document. A Firestore query result is passed in as a sequence.
- The signed-in user is an `Option<string>`.
- Fresh document ids, server timestamps and "now" are parameters.
- The outcome of each HTTP call or geolocation request is a datatype value chosen by the caller. Examples are `DeviceOutcome`, `Fetch` and `ServerReply`.

A thrown error becomes an `Err` value, or the unchanged state where the source catches it and carries on.

A JavaScript string that is `undefined` or `""` behaves the same under `||`. Such a field is a plain `string` with `""` meaning absent. Where the two are distinguishable (`??`, `JSON.stringify`, an optional field), the field is an `Option`.

`getPhoneLink` in src/components/BusinessCard.tsx:39 tests `cleanPhone[0] in ['6', '7', '8', '9']`. The JavaScript `in` operator tests array indices, so the test is true only for a leading `0`–`3`. Both branches build the same link, so this has no observable effect. `BusinessCard.GetPhoneLink` therefore has a single case.

## Model

| member | source | states |
|---|---|---|
| Location.FirstNonEmptyIndex | src/services/LocationService.ts:54-76 | the chosen key is the first in priority order whose address component is non-empty; every key before it is empty |
| Location.FirstNonEmpty | src/services/LocationService.ts:54-76 | the `a \|\| b \|\| … \|\| ''` chain is empty exactly when every listed component is empty, otherwise it is the first non-empty one |
| Location.SegmentArea | src/services/LocationService.ts:84 | the area taken from a display name is its first segment when that is non-empty and the area sentinel otherwise, so never empty |
| Location.SegmentCity | src/services/LocationService.ts:85 | the city taken from a display name is the second segment when that is non-empty, else the first segment when that is non-empty, else the city sentinel |
| Location.GpsAddressParts | src/services/LocationService.ts:93-97 | at most four address parts are collected, none of them empty once area and city are present |
| Location.AreaAndCity | src/services/LocationService.ts:78-90 | area and city are never empty; an address-derived value is kept; the display name's segments are used only when both are missing; every other gap is filled by the area or city sentinel |
| Location.GpsFullAddress | src/services/LocationService.ts:93-99 | the full address is never empty, and it is "your area" when no part survives |
| Location.Normalise | src/services/LocationService.ts:53-113 | a detailed reply yields a GPS location stamped with the position and time, whose area, city, state and country follow the component priority lists, with the display-name segments when area and city are both missing and the sentinels for every other gap; its full address is built from those fields |
| Location.CoarseLocation | src/services/LocationService.ts:138-157 | the coarse fallback has an unknown country and no state; its area is the first segment or the sentinel; its city is the display name's city segment unless that equals the area, in which case it is the city sentinel; its address is the first two segments joined, or the area when those are empty |
| Location.CoarseCity | src/services/LocationService.ts:141-145 | the coarse city is the display name's city segment when that differs from the area, and the city sentinel when it equals the area |
| Location.CoordinatesOnly | src/services/LocationService.ts:165-181 | the last fallback carries only the position, with every text field a sentinel |
| Location.CoarseSingleSegment | src/services/LocationService.ts:138-147 | a one-segment display name becomes both the area and the full address, and the city falls back to "your location" |
| Location.Resolve | src/services/LocationService.ts:16-187 | no position means no location and no network call; otherwise the detailed reply wins when it has an address, then a non-empty coarse name, then the coordinates; every resolved location is cached |
| Location.DetailedReplyShadowsCoarse | src/services/LocationService.ts:47-51 | once the detailed reply has an address, the outcome of the coarse call cannot change the result |
| Location.CreateManualLocation | src/services/LocationService.ts:198-214 | a typed location keeps the text as its full address; the area is the first trimmed part (or the text when that part is empty); the city is the second part, or the first when the second is missing or empty; the state is the third part when there is one; the country is the fourth part, or "unknown" when it is missing or empty |
| Location.DisplayParts | src/services/LocationService.ts:248-252 | no displayed part is empty, and a real area always comes first |
| Location.CityEqualToAreaIsSuppressed | src/services/LocationService.ts:250 | a city equal to the area is never shown twice |
| Location.FormatForDisplay | src/services/LocationService.ts:247-255 | the display string is empty only when there are no parts and no full address; it falls back to the full address and starts with a real area |
| Location.FormatForApi | src/services/LocationService.ts:258-267 | the API form always equals the display form |
| Location.NormalisedDisplaysAsFullAddress | src/services/LocationService.ts:93-99 | for a GPS location built from a detailed reply, formatting it for display gives back its stored full address (unless the country is literally "unknown") |
| Location.ManualDisplayRoundTrip | src/services/LocationService.ts:198-255 | a trimmed single-segment typed location displays as exactly the text typed |
| Location.AreaOnlyDisplay | src/services/LocationService.ts:247-255 | a location with city equal to area and no state or country shows the area, or its full address when the area is missing or the sentinel |
| Location.IsLocationRecent | src/services/LocationService.ts:239-244 | the hour-based real-number comparison is exactly "less than 24 hours in milliseconds have passed" |
| Location.SetCached | src/services/LocationService.ts:234-236 | after a set, the cache returns that location |
| Location.ClearCache | src/services/LocationService.ts:270-272 | after a clear, the cache is empty |
| Location.SetOverwrites | src/services/LocationService.ts:229-236 | of two successive sets, only the last is visible |
| Location.SaveUserLocation | src/services/LocationService.ts:217-226 | the cache takes the location only when the profile write succeeded; a failed write leaves the cache untouched and is reported |
| ChatInterface.ReplaceNearMe | src/components/ui/chatInterfaceRevamped.tsx:907 | text without a case-insensitive "near me" is left unchanged |
| ChatInterface.ReplaceNearMeLength | src/components/ui/chatInterfaceRevamped.tsx:907 | each of the N non-overlapping matches is swapped for the replacement, so the length changes by N times the length difference |
| ChatInterface.ReplaceByNearMeKeepsLower | src/components/ui/chatInterfaceRevamped.tsx:907 | replacing every match by "near me" itself gives back the lower-cased text, so the scan neither moves nor loses any letter |
| ChatInterface.ReplaceAtFirstMatch | src/components/ui/chatInterfaceRevamped.tsx:907 | the text before the first match is kept as typed, the match becomes the replacement, and the scan resumes right after the match |
| ChatInterface.HasNearMeIffCounted | src/components/ui/chatInterfaceRevamped.tsx:906-907 | the `includes` test on the lower-cased text holds exactly when the global regex finds at least one match |
| ChatInterface.FormatQuery | src/components/ui/chatInterfaceRevamped.tsx:904-910 | without "near me" or without a known location the query is the text itself; otherwise the text has at least one match, every match becomes "in" plus the API form of the location, and the length grows by the count of matches times the size difference |
| ChatInterface.NonEmptyOrNull | src/components/ui/chatInterfaceRevamped.tsx:966-968 | an empty or missing list becomes null; a non-empty one is kept as is |
| ChatInterface.ReplyText | src/components/ui/chatInterfaceRevamped.tsx:967 | the server message wins; otherwise "I found N providers." with N the list length; otherwise the default prompt |
| ChatInterface.AiMessage | src/components/ui/chatInterfaceRevamped.tsx:966-1005 | an AI message starts unrevealed; for a reply, its full text is the server message, else "I found N providers." for a non-empty list, else the default prompt, and its providers and suggestions are the reply's lists when non-empty and null otherwise; chips are visible exactly when suggestions exist; an unreachable server yields the trouble text and the two fallback chips |
| ChatInterface.HideAllSuggestions | src/components/ui/chatInterfaceRevamped.tsx:933 | every message is kept with its chips hidden and nothing else changed |
| ChatInterface.HideSuggestionsOf | src/components/ui/chatInterfaceRevamped.tsx:1015 | only messages with the chosen id lose their chips; every other message is unchanged |
| ChatInterface.AppendExchange | src/components/ui/chatInterfaceRevamped.tsx:933-1005 | the history grows by exactly the user message and the AI message; the old messages keep their content with chips hidden; only the newest message can show chips |
| ChatInterface.SendMessage | src/components/ui/chatInterfaceRevamped.tsx:921-1011 | blank text or a busy stage changes nothing; "near me" without a location only opens the location modal; otherwise exactly one query (the formatted text) is sent and two messages are appended, and the stage returns to idle |
| ChatInterface.SendLeavesOnlyNewSuggestions | src/components/ui/chatInterfaceRevamped.tsx:933-980 | after a send, no message except the newest shows suggestion chips |
| ChatInterface.HideThenAppend | src/components/ui/chatInterfaceRevamped.tsx:933-1015 | hiding one message's chips before a send that goes through makes no difference, since the send hides every older message's chips |
| ChatInterface.SelectSuggestion | src/components/ui/chatInterfaceRevamped.tsx:1014-1017 | choosing a chip sends exactly the query that typing its text would; when that send goes through, the screen ends as after typing it; when the send is refused, stage and location are kept, only the chosen message loses its chips, and the location modal opens for a "near me" chip with no location |
| ChatInterface.StartReveal | src/components/ui/chatInterfaceRevamped.tsx:321-334 | empty text finishes at once without firing; text that is not typing is shown whole and fires completion once unless it already had; typing text starts empty and running |
| ChatInterface.Tick | src/components/ui/chatInterfaceRevamped.tsx:336-351 | one timer tick reveals exactly one more character, keeps the state well formed and never unfires completion |
| ChatInterface.RevealProgress | src/components/ui/chatInterfaceRevamped.tsx:310-360 | after n ticks the first n characters are shown; after all of them the full text is shown and completion fired exactly once |
| ChatInterface.TicksLast | src/components/ui/chatInterfaceRevamped.tsx:336-351 | n+1 ticks are n ticks followed by one more |
| ChatSessions.CreateSession | src/services/ChatService.ts:6-22 | a new session under a fresh id belongs to the user, has the title, no messages and no last message; other sessions are untouched |
| ChatSessions.AddMessage | src/services/ChatService.ts:61-86 | a missing session is an error; otherwise the message with its fresh id is appended, `lastMessage` and `updatedAt` are set, and no other session or field changes |
| ChatSessions.SliceFrom | src/services/ChatService.ts:98 | `slice` with a possibly negative start always yields a suffix of the list |
| ChatSessions.GetRecentMessages | src/services/ChatService.ts:88-103 | a missing session yields nothing; a positive limit yields the last `limit` messages; a zero limit yields all of them (`slice(-0)`); a negative limit drops that many from the front |
| ChatSessions.GetRecentMessagesDefault | src/services/ChatService.ts:88-98 | the default is `getRecentMessages` with limit 50: the whole history when it has at most 50 messages, otherwise exactly its last 50 |
| ChatSessions.AddThenLatest | src/services/ChatService.ts:61-103 | right after adding a message, the most recent one is that message |
| ChatSessions.CreatedSessionIsEmpty | src/services/ChatService.ts:6-22 | a freshly created session has no recent messages for any limit |
| Businesses.StoredName | src/services/BusinessService.ts:36 | the stored name is never empty, and a given name is kept |
| Businesses.CleanFields | src/services/BusinessService.ts:63-73 | the cleaned record keeps the business's own values and fills the name, the category and the location with their defaults |
| Businesses.SaveBusiness | src/services/BusinessService.ts:18-91 | only the signed-in owner may save; a same-name, same-location entry is rejected without writing; a save adds exactly one document, under the fresh id, and changes no other document |
| Businesses.SaveTwiceIsDuplicate | src/services/BusinessService.ts:32-57 | saving the same business twice is refused the second time |
| Businesses.UnsaveBusiness | src/services/BusinessService.ts:93-121 | deletion happens exactly when the caller is signed in and owns an existing document, and removes only that document; each failure has its own error |
| Businesses.PreferNested | src/services/BusinessService.ts:168-171 | a non-empty nested location field takes precedence over the flat one |
| Businesses.ToBusiness | src/services/BusinessService.ts:146-184 | a document of either layout becomes a saved business with its id, its fields, and its location merged field by field; `savedAt` defaults to now |
| Businesses.GetSavedBusinesses | src/services/BusinessService.ts:123-184 | only the signed-in owner may read, and every queried document becomes exactly one saved business, in order |
| Businesses.SaveThenRead | src/services/BusinessService.ts:63-184 | a saved business reads back with its defaults applied, its contact fields intact and its location fields filled |
| Businesses.SavedIsListed | src/services/BusinessService.ts:63-184 | after a successful save, the owner's read of the documents the store holds for them succeeds and lists the new business with its stored fields |
| Businesses.SearchFilter | src/services/BusinessService.ts:254-265 | no query keeps every result; a query keeps, in order, only results whose name, description, a service or a non-empty phone contains it case-insensitively, and each such result as often as it was fetched |
| SavedProviders.SortRecent | src/components/SavedProvidersScreen.tsx:115-119 | the recent sort is a permutation ordered by save time, newest first |
| SavedProviders.Visible | src/components/SavedProvidersScreen.tsx:107-113 | the filtered list is a sub-multiset of the providers whose elements all match both the category and the search, and each matching provider appears as often as in the full list |
| SavedProviders.Filtered | src/components/SavedProvidersScreen.tsx:106-127 | the list on screen is sorted newest first, holds only matching providers, and holds each matching provider as often as the saved list does |
| SavedProviders.NoFiltersShowsAll | src/components/SavedProvidersScreen.tsx:106-119 | with category "All" and no search, every provider is shown |
| SavedProviders.LoadSavedProviders | src/components/SavedProvidersScreen.tsx:81-98 | loading always ends; with no user the list is unchanged, a read failure empties it, and a successful read replaces it |
| SavedProviders.LoadShowsSavedDocuments | src/components/SavedProvidersScreen.tsx:81-98 | for a signed-in user the screen lists one saved business per stored document, in query order |
| SavedProviders.RemoveProvider | src/components/SavedProvidersScreen.tsx:130-143 | without a user, or when the service refuses, the list and the store are unchanged; when the service deletes the document, the store is the one the service left (every other document intact) and the card leaves the list, all other cards staying in order |
| SavedProviders.EmptyStateTitle | src/components/SavedProvidersScreen.tsx:333 | "No matching providers" exactly when a search or category filter is active, else "Nothing Saved" |
| BusinessCard.FormatPhoneForDisplay | src/components/BusinessCard.tsx:26-31 | no phone is shown exactly when it is missing, the placeholder or blank; otherwise it is shown as given |
| BusinessCard.GetPhoneLink | src/components/BusinessCard.tsx:34-46 | the link is a global `tel:` URI (section 3 of RFC 3966) whose number is +91 followed by the phone's digits |
| BusinessCard.PhoneLinkKeepsDigits | src/components/BusinessCard.tsx:36-44 | the digits of the link are "91" followed by the digits of the phone |
| BusinessCard.PhoneRow | src/components/BusinessCard.tsx:95-107 | the phone row appears exactly when there is a displayable phone, shows it verbatim, and links to `getPhoneLink` of it, a valid `tel:` URI dialling "91" followed by the phone's digits |
| BusinessCard.WebsiteHref | src/components/BusinessCard.tsx:114 | the link always starts with "http"; an address starting with "http" is kept and any other is "https://" followed by it |
| BusinessCard.WebsiteHrefIdempotent | src/components/BusinessCard.tsx:114 | building the link twice changes nothing |
| BusinessCard.WebsiteRow | src/components/BusinessCard.tsx:110-123 | the website row appears exactly when a website is set, and carries the website's absolute link |
| BusinessCard.ReviewsFragmentAsWritten | src/components/BusinessCard.tsx:130 | as written, a review count is shown only for positive counts, and a count of 0 renders a bare "0" |
| BusinessCard.ZeroReviewsRenderZero | src/components/BusinessCard.tsx:130 | a card with zero reviews renders something rather than nothing |
| BusinessCard.ReviewsFragment | src/components/BusinessCard.tsx:130-134 | the review count is shown exactly for positive counts, and nothing else is ever rendered |
| BusinessCard.ReviewsFragmentsAgreeExceptZero | src/components/BusinessCard.tsx:130 | the written and the corrected fragment differ exactly at a count of 0 |
| BusinessCard.RatingRowAsWritten | src/components/BusinessCard.tsx:126-137 | as written, the rating row appears exactly when a rating is set, shows the review count exactly when it is positive, and shows a bare "0" for a count of 0 |
| BusinessCard.RatingRow | src/components/BusinessCard.tsx:126-137 | corrected rating row: it appears exactly when a rating is set, shows the review count exactly when it is positive, and never renders a stray number |
| BusinessCard.RatingRowsAgreeExceptZero | src/components/BusinessCard.tsx:126-137 | the written and the corrected rating rows differ exactly for a rated business with a review count of 0 |
| PhoneFormat.Digits | src/utils/PhoneNumberFormatter.tsx:3 | removing non-digits leaves only digits, never lengthens, and leaves an all-digit string alone |
| PhoneFormat.DigitsIsFilter | src/utils/PhoneNumberFormatter.tsx:3 | `replace(/\D/g, "")` is the same as keeping the characters that are digits |
| PhoneFormat.DigitsAppend | src/utils/PhoneNumberFormatter.tsx:3 | stripping non-digits distributes over concatenation |
| PhoneFormat.DigitsIdempotent | src/utils/PhoneNumberFormatter.tsx:3 | stripping non-digits twice is the same as once |
| PhoneFormat.FormatPhoneForWaMe | src/utils/PhoneNumberFormatter.tsx:1-5 | the wa.me number is all digits: empty for a missing phone, otherwise the phone's digits in order |
| Activity.InitializeUserActivity | src/services/UserActivityService.ts:48-87 | an empty id or a caller who is not signed in is rejected; an existing document is left alone; a missing one is created with zero counters |
| Activity.InitializeIdempotent | src/services/UserActivityService.ts:64-82 | initialising twice is the same as once |
| Activity.CountSearch | src/services/UserActivityService.ts:111-147 | a search adds one to the total, adds the providers found, and sets the monthly count to 1 when the last update lies in another calendar month or year, otherwise adds one to it |
| Activity.RecordSearch | src/services/UserActivityService.ts:90-154 | only the signed-in user may record; a record appends exactly one history entry and updates only that user's counters; a first search starts every counter at its first value |
| Activity.SameMonthSearchesAccumulate | src/services/UserActivityService.ts:103-147 | two searches in the same month add two to the total and add both provider counts |
| Activity.GetUserActivity | src/services/UserActivityService.ts:157-217 | a signed-in user always gets their counters, with absent counters read as 0 |
| Activity.ChangePercent | src/services/UserActivityService.ts:224-253 | the percentage lies in 0..100, is 0 exactly for non-positive counts, saturates at 100 once the count reaches its scale, and below the scale is the floor of count times 100 over the scale |
| Activity.DivAtLeast | src/services/UserActivityService.ts:224-253 | a quotient reaches m once the dividend reaches m times the divisor |
| Activity.ChangeString | src/services/UserActivityService.ts:224-253 | the change is "+N%" where N is the decimal form of the capped percentage, and it is "+0%" exactly for non-positive counts |
| Activity.GetActivityStats | src/services/UserActivityService.ts:220-266 | statistics carry the user's counters, each with its change string at its own scale (10 searches, 100 providers, 5 monthly searches), and fall back to all zeros and "+0%" on no activity or any failure |
| ProfileScreen.ToggleExpand | src/components/UserProfileScreen.tsx:198 | toggling flips exactly one section and leaves the rest alone |
| ProfileScreen.ToggleExpandTwice | src/components/UserProfileScreen.tsx:198 | toggling a section twice restores every section's state |
| ProfileScreen.Flip | src/components/UserProfileScreen.tsx:218 | flipping an account changes only that account |
| ProfileScreen.ToggleNow | src/components/UserProfileScreen.tsx:215-221 | the chosen account flips and the other keeps its state; nothing else but the toasts changes; two toasts are appended, "Connecting X..." then "X Connected!" for an account that was off, and "Disconnecting X..." then "X Disconnected!" for one that was on |
| ProfileScreen.ToggleAccount | src/components/UserProfileScreen.tsx:207-221 | outside edit mode only a hint toast appears; in edit mode the screen is exactly the one ToggleNow produces |
| ProfileScreen.ToggleAccountTwice | src/components/UserProfileScreen.tsx:215-221 | in edit mode, toggling an account twice restores the accounts |
| ProfileScreen.HasProfileChanged | src/components/UserProfileScreen.tsx:223-230 | the profile counts as changed exactly when a field other than the address differs from the baseline |
| ProfileScreen.HasAccountsChanged | src/components/UserProfileScreen.tsx:231 | the accounts count as changed exactly when one connection differs from the baseline |
| ProfileScreen.DirtySections | src/components/UserProfileScreen.tsx:232-238 | each section is listed exactly when it changed, in the order Profile, Accounts |
| ProfileScreen.AddressEditIsNotDirty | src/components/UserProfileScreen.tsx:223-238 | editing only the address never makes the screen dirty |
| ProfileScreen.HandleSave | src/components/UserProfileScreen.tsx:242-269 | a clean screen or no user changes nothing; a successful write makes the edits the new baseline and leaves edit mode; a failed write keeps the edits dirty and says so |
| ProfileScreen.HandleCancel | src/components/UserProfileScreen.tsx:272-277 | cancelling restores the baseline, leaves edit mode and is never dirty |
| ProfileScreen.SubmitPassword | src/components/UserProfileScreen.tsx:281-290 | a password change succeeds exactly when current and new are filled and the confirmation matches; otherwise the first failing check names the error |
| Text.Trim | src/services/LocationService.ts:83 | trimmed text is no longer than the input, has no white space at either end, and is "" exactly for blank text |
| Text.TrimStartCutsSpace | src/services/LocationService.ts:83 | everything `trimStart` cuts off the front of the text is white space |
| Text.TrimEndCutsSpace | src/services/LocationService.ts:83 | everything `trimEnd` cuts off the back of the text is white space |
| Text.TrimCutsOnlySpace | src/services/LocationService.ts:83 | `trim` returns the contiguous piece of the input that starts after its leading white space, and everything cut off before and after that piece is white space |
| Text.Split | src/services/LocationService.ts:83 | splitting always yields at least one part, no part contains the separator, and text without it is a single part |
| Text.JoinSplit | src/services/LocationService.ts:83 | joining the parts of a split with the same separator gives back the text |
| Text.SplitTrim | src/services/LocationService.ts:83 | each part is the trimmed split part, with as many parts as the split |
| Text.ContainsAt | src/components/ui/chatInterfaceRevamped.tsx:925 | the scan that models `includes` holds exactly when the substring occurs at some position of the text |
| Text.Lower | src/components/ui/chatInterfaceRevamped.tsx:925 | lower-casing keeps the length and maps each character on its own |
| Text.ParseNatToString | src/components/ui/chatInterfaceRevamped.tsx:967 | the decimal rendering of a count reads back as that count |
| Seqs.Filter | src/components/SavedProvidersScreen.tsx:107-113 | `filter` keeps, in order, only elements satisfying the predicate, and every satisfying element as many times as it occurs in the input |
| Seqs.SortDescending | src/components/SavedProvidersScreen.tsx:115-119 | sorting by a key, largest first, is a permutation and is ordered |

## Left out

- Network, device and storage I/O are not modelled. Nominatim, the chat backend, Firestore and the geolocation API are outcome parameters. The `User-Agent` header, the URLs and the geolocation options are not modelled.
- ChatInterface.Tick, ChatInterface.Ticks, ChatInterface.RevealProgress, ChatInterface.TicksLast: strings are sequences of Unicode scalar values, so the reveal ticks once per character. The source's `text.slice(0, i)` and `i >= text.length` count UTF-16 code units. For text with characters outside the Basic Multilingual Plane, such as emoji, the source takes one extra tick per such character and shows one frame ending in a lone surrogate; the model does not describe those frames.
- Auth: `getIdToken(true)` refresh calls and the auth-context plumbing are left out. Only "is the caller the signed-in user" is modelled.
- Timers are left out:
  - the chat's "searching" and "organizing" stage timers;
  - the 20 ms reveal interval, which is modelled as one `Tick` per firing;
  - the 4-second toast expiry and random toast ids;
  - the simulated network delays on the profile screen.
- ProfileScreen.ToggleAccount: the 800 ms delay before the flip and the second toast is collapsed, so both toasts and the flip happen at once; toast removal after 4 s and toast ids and kinds are not modelled.
- `toLowerCase` is modelled for ASCII letters only. For the "near me" test this is exact, because no other character lower-cases into those letters.
- ChatInterface.ReplaceNearMe: `$` patterns in the replacement string are treated literally, not as JavaScript replacement patterns.
- ChatInterface.SendMessage: the `willHaveProviders` regular expression is not modelled, and neither is the `recordSearch` call made after a reply. `Activity.RecordSearch` models that service call itself.
- Activity.ChangePercent: computed as an exact integer quotient. The source's floating point `Math.floor((n / d) * 100)` can come out one lower for some counts, e.g. 57 monthly searches.
- Businesses.SaveBusiness: location equality compares the structured value. This assumes `JSON.stringify` writes keys in the same order on both sides. Firestore's `where` on the name is folded into the duplicate test.
- Businesses.GetSavedBusinesses: Firestore's `orderBy('savedAt', 'desc')` ordering is not modelled; the documents are taken in the order given. Only its exclusion of documents without `savedAt` is stated, in Businesses.QueriedFrom.
- SavedProviders.Filtered: only the default "recent" sort is modelled. The "rating" sort (`parseFloat`) and the A–Z sort (`localeCompare`) are left out, because neither has a faithful model without floating point and locale collation.
- SavedProviders.SortRecent: the sort is implemented stably but stability is not proved.
- `getSession`, `getUserSessions`, `getSearchHistory`, `getBusinessById` and the search-history list inside `getUserActivity` are not modelled. They are plain reads whose order comes from a Firestore query.
- `RevealedText`'s React effect bookkeeping (refs, cleanup) is modelled only as a state machine.
- Rendering (class names, themes, icons) is not modelled.

## Findings

| source | as written | input that shows it | evidently intended | confidence | as-written member | corrected member |
|---|---|---|---|---|---|---|
| src/components/BusinessCard.tsx:130 | `{business.reviews && business.reviews > 0 && (…)}` short-circuits to the number `0`, which React renders as the text "0" | a rated business with `reviews = 0`, which `getSavedBusinesses` produces for any stored business without reviews | show nothing when there are no reviews | high, not executed | BusinessCard.ReviewsFragmentAsWritten and BusinessCard.RatingRowAsWritten (exhibited by BusinessCard.ZeroReviewsRenderZero) | BusinessCard.ReviewsFragment and BusinessCard.RatingRow (compared by BusinessCard.ReviewsFragmentsAgreeExceptZero and BusinessCard.RatingRowsAgreeExceptZero) |

=== FILE: activity.dfy ===
/**
 * The user-activity service: idempotent creation of the per-user activity
 * document, recording a search (history entry, counters, monthly reset),
 * reading counters back with zero defaults, and the capped percentage
 * strings of the dashboard statistics.
 *
 * The two collections are maps; the signed-in user, fresh ids and the
 * current calendar month are parameters.
 */
module Activity {
  import opened Wrappers
  import opened Text

  /** What `getMonth()` and `getFullYear()` read from a timestamp. */
  datatype Month = Month(year: int, month: int)

  /** A `userActivity` document; a counter that was never written is None. */
  datatype ActivityDoc = ActivityDoc(
    userId: string,
    totalSearches: Option<int>,
    totalProvidersFound: Option<int>,
    thisMonthSearches: Option<int>,
    updatedAt: Option<Month>,
    lastSearchDate: Option<Month>)

  /** A `searchHistory` document. */
  datatype SearchRecord = SearchRecord(userId: string, query: string, providersFound: int, category: string, timestamp: Month)

  /** The `userActivity` collection keyed by user id, and the `searchHistory` collection. */
  datatype ActivityDb = ActivityDb(activity: map<string, ActivityDoc>, history: map<string, SearchRecord>)

  datatype ActivityError = UserIdRequired | NotAuthenticated

  const GeneralCategory := "general"

  /** The zeroed document `initializeUserActivity` creates. */
  function ZeroActivity(userId: string, now: Month): ActivityDoc {
    ActivityDoc(userId, Some(0), Some(0), Some(0), Some(now), None)
  }

  /** `initializeUserActivity`: creates the zeroed document only when none exists. */
  function InitializeUserActivity(db: ActivityDb, currentUser: Option<string>, userId: string, now: Month): (r: Result<ActivityDb, ActivityError>)
    ensures userId == "" ==> r == Err(UserIdRequired)
    ensures userId != "" && currentUser != Some(userId) ==> r == Err(NotAuthenticated)
    ensures r.Ok? <==> userId != "" && currentUser == Some(userId)
    ensures r.Ok? ==> userId in r.value.activity && r.value.history == db.history
    ensures r.Ok? && userId in db.activity ==> r.value == db
    ensures r.Ok? && userId !in db.activity ==>
      r.value.activity == db.activity[userId := ZeroActivity(userId, now)]
  {
    if userId == "" then Err(UserIdRequired)
    else if currentUser != Some(userId) then Err(NotAuthenticated)
    else if userId in db.activity then Ok(db)
    else Ok(db.(activity := db.activity[userId := ZeroActivity(userId, now)]))
  }

  /** Initialising twice is initialising once, whatever month the second call sees. */
  lemma InitializeIdempotent(db: ActivityDb, currentUser: Option<string>, userId: string, now: Month, later: Month)
    requires InitializeUserActivity(db, currentUser, userId, now).Ok?
    ensures var db1 := InitializeUserActivity(db, currentUser, userId, now).value;
      InitializeUserActivity(db1, currentUser, userId, later) == Ok(db1)
  {
  }

  /** A counter as `increment` and `|| 0` read it: missing is zero. */
  function Count(c: Option<int>): int {
    c.GetOr(0)
  }

  /** The monthly counter restarts exactly when the last update lies in another month or year. */
  predicate ShouldResetMonthly(d: ActivityDoc, now: Month) {
    match d.updatedAt
    case None => false
    case Some(last) => now.month != last.month || now.year != last.year
  }

  /** The counter update of one recorded search. */
  function CountSearch(d: ActivityDoc, providersFound: int, now: Month): (r: ActivityDoc)
    ensures r.userId == d.userId
    ensures Count(r.totalSearches) == Count(d.totalSearches) + 1
    ensures Count(r.totalProvidersFound) == Count(d.totalProvidersFound) + providersFound
    ensures Count(r.thisMonthSearches) == if ShouldResetMonthly(d, now) then 1 else Count(d.thisMonthSearches) + 1
    ensures r.updatedAt == Some(now) && r.lastSearchDate == Some(now)
  {
    d.(totalSearches := Some(Count(d.totalSearches) + 1),
       totalProvidersFound := Some(Count(d.totalProvidersFound) + providersFound),
       thisMonthSearches := Some(if ShouldResetMonthly(d, now) then 1 else Count(d.thisMonthSearches) + 1),
       lastSearchDate := Some(now),
       updatedAt := Some(now))
  }

  /**
   * `recordSearch`: after the id and authentication checks, make sure the
   * activity document exists, add a history entry (category defaulting to
   * "general") and update the counters.
   */
  function RecordSearch(db: ActivityDb, currentUser: Option<string>, userId: string, query: string,
                        providersFound: int, category: string, recordId: string, now: Month): (r: Result<ActivityDb, ActivityError>)
    requires recordId !in db.history
    ensures userId == "" ==> r == Err(UserIdRequired)
    ensures r.Ok? <==> userId != "" && currentUser == Some(userId)
    ensures r.Ok? ==>
      && r.value.history == db.history[recordId := SearchRecord(userId, query, providersFound,
                                                               if category != "" then category else GeneralCategory, now)]
      && r.value.activity.Keys == db.activity.Keys + {userId}
      && (forall u :: u in db.activity && u != userId ==> r.value.activity[u] == db.activity[u])
    ensures r.Ok? && userId in db.activity ==>
      r.value.activity[userId] == CountSearch(db.activity[userId], providersFound, now)
    ensures r.Ok? && userId !in db.activity ==>
      && Count(r.value.activity[userId].totalSearches) == 1
      && Count(r.value.activity[userId].thisMonthSearches) == 1
      && Count(r.value.activity[userId].totalProvidersFound) == providersFound
  {
    match InitializeUserActivity(db, currentUser, userId, now)
    case Err(e) => Err(e)
    case Ok(db1) =>
      var entry := SearchRecord(userId, query, providersFound, if category != "" then category else GeneralCategory, now);
      Ok(ActivityDb(db1.activity[userId := CountSearch(db1.activity[userId], providersFound, now)],
                    db1.history[recordId := entry]))
  }

  /** Two searches in the same month both count toward that month. */
  lemma SameMonthSearchesAccumulate(db: ActivityDb, u: string, q1: string, q2: string, p1: int, p2: int,
                                    id1: string, id2: string, now: Month)
    requires id1 != id2 && id1 !in db.history && id2 !in db.history
    requires RecordSearch(db, Some(u), u, q1, p1, "", id1, now).Ok?
    requires u in db.activity
    ensures var db1 := RecordSearch(db, Some(u), u, q1, p1, "", id1, now).value;
      var db2 := RecordSearch(db1, Some(u), u, q2, p2, "", id2, now).value;
      && Count(db2.activity[u].thisMonthSearches) == Count(db1.activity[u].thisMonthSearches) + 1
      && Count(db2.activity[u].totalSearches) == Count(db.activity[u].totalSearches) + 2
      && Count(db2.activity[u].totalProvidersFound) == Count(db.activity[u].totalProvidersFound) + p1 + p2
  {
    var db1 := RecordSearch(db, Some(u), u, q1, p1, "", id1, now).value;
    assert id2 !in db1.history;
    assert !ShouldResetMonthly(db1.activity[u], now);
  }

  /** The counters as `getUserActivity` returns them. */
  datatype UserActivity = UserActivity(userId: string, totalSearches: int, totalProvidersFound: int, thisMonthSearches: int)

  /** `getUserActivity`: ensures the document exists, then reads it with missing counters as 0. */
  function GetUserActivity(db: ActivityDb, currentUser: Option<string>, userId: string, now: Month): (r: Result<Option<UserActivity>, ActivityError>)
    ensures r.Ok? <==> userId != "" && currentUser == Some(userId)
    ensures r.Ok? ==> r.value.Some?
    ensures r.Ok? && userId !in db.activity ==> r.value == Some(UserActivity(userId, 0, 0, 0))
    ensures r.Ok? && userId in db.activity ==>
      var d := db.activity[userId];
      r.value == Some(UserActivity(d.userId, Count(d.totalSearches), Count(d.totalProvidersFound), Count(d.thisMonthSearches)))
  {
    match InitializeUserActivity(db, currentUser, userId, now)
    case Err(e) => Err(e)
    case Ok(db1) =>
      var d := db1.activity[userId];
      Ok(Some(UserActivity(d.userId, Count(d.totalSearches), Count(d.totalProvidersFound), Count(d.thisMonthSearches))))
  }

  datatype ActivityStats = ActivityStats(
    totalSearches: int,
    totalProvidersFound: int,
    thisMonthSearches: int,
    searchesChange: string,
    providersChange: string,
    monthlyChange: string)

  const ZeroChange := "+0%"
  const ZeroStats := ActivityStats(0, 0, 0, ZeroChange, ZeroChange, ZeroChange)

  /** `Math.min(Math.floor((n / d) * 100), 100)` for a positive count, in exact arithmetic; 0 otherwise. */
  function ChangePercent(n: int, d: int): (k: nat)
    requires 0 < d <= 100
    ensures k <= 100
    ensures k == 0 <==> n <= 0
    ensures n > 0 && n >= d ==> k == 100
    ensures 0 < n < d ==> k * d <= n * 100 < (k + 1) * d
  {
    if n <= 0 then 0
    else
      var x := n * 100;
      DivAtLeast(x, d, 1);
      DivAtLeast(x, d, 100);
      if x / d < 100 then x / d else 100
  }

  /** Integer division by a positive divisor does not fall below `m` when the dividend is at least `m` times it. */
  lemma DivAtLeast(x: int, d: int, m: int)
    requires d > 0
    ensures x >= m * d ==> x / d >= m
  {
    var q := x / d;
    assert x == d * q + x % d;
    if q <= m - 1 {
      MulMonotone(d, q, m - 1);
      assert d * (m - 1) == d * m - d;
    }
  }

  /** Multiplying by a non-negative factor keeps order. */
  lemma MulMonotone(d: int, a: int, b: int)
    requires d >= 0 && a <= b
    ensures d * a <= d * b
  {
    assert d * b - d * a == d * (b - a);
  }

  /** The change string: "+k%" with k the capped percentage. */
  function ChangeString(n: int, d: int): (r: string)
    requires 0 < d <= 100
    ensures |r| >= 3 && r[0] == '+' && r[|r| - 1] == '%'
    ensures AllDigits(r[1..|r| - 1]) && ParseDigits(r[1..|r| - 1]) <= 100
    ensures r == ZeroChange <==> n <= 0
    ensures ParseDigits(r[1..|r| - 1]) == ChangePercent(n, d)
  {
    var k := ChangePercent(n, d);
    var digits := NatToString(k);
    var r := "+" + digits + "%";
    assert r[1..|r| - 1] == digits;
    ParseNatToString(k);
    assert r == ZeroChange ==> k == 0 by {
      if r == ZeroChange {
        assert digits == NatToString(0);
        NatToStringInjective(k, 0);
      }
    }
    r
  }

  /**
   * `getActivityStats`: no activity, or any error, gives all zeros and
   * "+0%" everywhere; otherwise the counters with their change strings.
   */
  function GetActivityStats(activity: Result<Option<UserActivity>, ActivityError>): (r: ActivityStats)
    ensures activity.Err? || activity.value.None? ==> r == ZeroStats
    ensures activity.Ok? && activity.value.Some? ==>
      var a := activity.value.value;
      && r.totalSearches == a.totalSearches
      && r.totalProvidersFound == a.totalProvidersFound
      && r.thisMonthSearches == a.thisMonthSearches
      && (r.searchesChange == ZeroChange <==> a.totalSearches <= 0)
      && (r.providersChange == ZeroChange <==> a.totalProvidersFound <= 0)
      && (r.monthlyChange == ZeroChange <==> a.thisMonthSearches <= 0)
      && r.searchesChange == ChangeString(a.totalSearches, 10)
      && r.providersChange == ChangeString(a.totalProvidersFound, 100)
      && r.monthlyChange == ChangeString(a.thisMonthSearches, 5)
  {
    match activity
    case Err(_) => ZeroStats
    case Ok(None) => ZeroStats
    case Ok(Some(a)) =>
      ActivityStats(a.totalSearches, a.totalProvidersFound, a.thisMonthSearches,
                    ChangeString(a.totalSearches, 10), ChangeString(a.totalProvidersFound, 100),
                    ChangeString(a.thisMonthSearches, 5))
  }
}

=== FILE: business_card.dfy ===
/**
 * The business card's contact rows: which rows appear and the links they
 * carry (a `tel:` URI for the phone, an absolute URL for the website, the
 * review count beside the rating).
 */
module BusinessCard {
  import opened Wrappers
  import opened Text
  import opened PhoneFormat

  const PlaceholderPhone := "XXXXX-XXXXX"
  const TelPrefix := "tel:+91"

  /** `formatPhoneForDisplay`: missing, placeholder and blank numbers are not shown. */
  function FormatPhoneForDisplay(phone: Option<string>): (r: Option<string>)
    ensures r.None? <==> phone.None? || phone.value == PlaceholderPhone || AllSpace(phone.value)
    ensures r.Some? ==> r == phone
  {
    if phone.None? || phone.value == "" || phone.value == PlaceholderPhone || Trim(phone.value) == "" then None
    else phone
  }

  /**
   * A `global-number` in the `tel` URI scheme of RFC 3966 (section 3):
   * "tel:", a "+", and at least one digit, written here without visual
   * separators.
   */
  predicate IsGlobalTelUri(s: string) {
    |s| > 5 && s[..5] == "tel:+" && AllDigits(s[5..])
  }

  /**
   * `getPhoneLink`: India's country code followed by the digits of the
   * number. The mobile-number test `cleanPhone[0] in ['6','7','8','9']`
   * asks whether the character is an index of the four-element array
   * ('0' to '3'), and both of its branches build the same link, so the
   * test is modelled and has no effect.
   */
  function GetPhoneLink(phone: string): (r: string)
    ensures IsGlobalTelUri(r)
    ensures StartsWith(r, TelPrefix) && r[|TelPrefix|..] == Digits(phone)
  {
    var clean := Digits(phone);
    var isIndianMobile := |clean| == 10 && clean[0] in "0123";
    if isIndianMobile then TelPrefix + clean else TelPrefix + clean
  }

  /** The number dialled from the link has the displayed number's digits, after the country code. */
  lemma PhoneLinkKeepsDigits(phone: string)
    ensures Digits(GetPhoneLink(phone)) == "91" + Digits(phone)
  {
    var d := Digits(phone);
    assert GetPhoneLink(phone) == "tel:+" + ("91" + d);
    DigitsAfterPrefix("tel:+", "91", d);
  }

  /** The phone row: the text shown and the link it carries, when the number is displayable. */
  function PhoneRow(phone: Option<string>): (r: Option<(string, string)>)
    ensures r.Some? <==> FormatPhoneForDisplay(phone).Some?
    ensures r.Some? ==> r.value.0 == phone.value && IsGlobalTelUri(r.value.1)
    ensures r.Some? ==> r.value.1 == GetPhoneLink(phone.value)
    ensures r.Some? ==> Digits(r.value.1) == "91" + Digits(phone.value)
  {
    match FormatPhoneForDisplay(phone)
    case None => None
    case Some(shown) =>
      PhoneLinkKeepsDigits(shown);
      Some((shown, GetPhoneLink(shown)))
  }

  /** The website link: kept when it already starts with "http", otherwise given "https://". */
  function WebsiteHref(website: string): (r: string)
    ensures StartsWith(r, "http")
    ensures StartsWith(website, "http") ==> r == website
    ensures !StartsWith(website, "http") ==> r == "https://" + website
  {
    if StartsWith(website, "http") then website else "https://" + website
  }

  /** Making a link absolute twice is making it absolute once. */
  lemma WebsiteHrefIdempotent(website: string)
    ensures WebsiteHref(WebsiteHref(website)) == WebsiteHref(website)
  {
  }

  /** The website row: present for a non-empty website, carrying its link. */
  function WebsiteRow(website: Option<string>): (r: Option<string>)
    ensures r.Some? <==> website.Some? && website.value != ""
    ensures r.Some? ==> StartsWith(r.value, "http")
    ensures r.Some? ==> r.value == WebsiteHref(website.value)
  {
    if website.None? || website.value == "" then None else Some(WebsiteHref(website.value))
  }

  /** What a JSX expression child renders: nothing, a text node, or the review-count span. */
  datatype Rendered = Nothing | TextNode(text: string) | ReviewCount(count: int)

  /**
   * The review fragment as written, `reviews && reviews > 0 && <span/>`:
   * a count of 0 short-circuits to the number 0, which React renders as
   * the text "0" (only `false`, `null` and `undefined` render nothing).
   */
  function ReviewsFragmentAsWritten(reviews: Option<int>): (r: Rendered)
    ensures r.ReviewCount? <==> reviews.Some? && reviews.value > 0
    ensures r == TextNode("0") <==> reviews == Some(0)
  {
    match reviews
    case None => Nothing
    case Some(n) =>
      if n == 0 then TextNode("0")
      else if n > 0 then ReviewCount(n)
      else Nothing
  }

  /** A business with no reviews gets a stray "0" after its rating. */
  lemma ZeroReviewsRenderZero()
    ensures ReviewsFragmentAsWritten(Some(0)) == TextNode("0")
    ensures ReviewsFragmentAsWritten(Some(0)) != Nothing
  {
  }

  /** The review fragment as intended: the count when positive, nothing otherwise. */
  function ReviewsFragment(reviews: Option<int>): (r: Rendered)
    ensures r != Nothing <==> reviews.Some? && reviews.value > 0
    ensures r != Nothing ==> r == ReviewCount(reviews.value)
    ensures !r.TextNode?
  {
    if reviews.Some? && reviews.value > 0 then ReviewCount(reviews.value) else Nothing
  }

  /** The intended and the written fragment differ only for a count of zero. */
  lemma ReviewsFragmentsAgreeExceptZero(reviews: Option<int>)
    ensures ReviewsFragment(reviews) == ReviewsFragmentAsWritten(reviews) <==> reviews != Some(0)
  {
  }

  /**
   * The rating row as written: present for a non-empty rating, with the
   * written review fragment beside it, so a rated business with no reviews
   * shows a stray "0".
   */
  function RatingRowAsWritten(rating: Option<string>, reviews: Option<int>): (r: Option<(string, Rendered)>)
    ensures r.Some? <==> rating.Some? && rating.value != ""
    ensures r.Some? ==> r.value.0 == rating.value
    ensures r.Some? ==> (r.value.1.ReviewCount? <==> reviews.Some? && reviews.value > 0)
    ensures r.Some? && reviews == Some(0) ==> r.value.1 == TextNode("0")
  {
    if rating.None? || rating.value == "" then None else Some((rating.value, ReviewsFragmentAsWritten(reviews)))
  }

  /** The rating row as intended: the same row, with the corrected review fragment. */
  function RatingRow(rating: Option<string>, reviews: Option<int>): (r: Option<(string, Rendered)>)
    ensures r.Some? <==> rating.Some? && rating.value != ""
    ensures r.Some? ==> r.value.0 == rating.value && !r.value.1.TextNode?
    ensures r.Some? ==> (r.value.1 != Nothing <==> reviews.Some? && reviews.value > 0)
  {
    if rating.None? || rating.value == "" then None else Some((rating.value, ReviewsFragment(reviews)))
  }

  /** The two rating rows differ only for a rated business whose review count is zero. */
  lemma RatingRowsAgreeExceptZero(rating: Option<string>, reviews: Option<int>)
    ensures RatingRow(rating, reviews) == RatingRowAsWritten(rating, reviews) <==>
      rating.None? || rating.value == "" || reviews != Some(0)
  {
    ReviewsFragmentsAgreeExceptZero(reviews);
  }
}

=== FILE: businesses.dfy ===
/**
 * The saved-business service: saving with its authentication and duplicate
 * checks and field defaults, owner-checked removal, reading documents of
 * both the nested (`businessInfo`) and the older flat layout, and the
 * client-side search filter.
 *
 * The `savedBusinesses` collection is a map from document id to document;
 * the signed-in user, fresh document ids and server timestamps are
 * parameters.
 */
module Businesses {
  import opened Wrappers
  import opened Text
  import opened Seqs

  datatype LatLng = LatLng(lat: real, lng: real)

  /** A business location; absent fields are left out of its JSON form. */
  datatype BusinessLocation = BusinessLocation(
    address: Option<string>,
    city: Option<string>,
    state: Option<string>,
    zip: Option<string>,
    coordinates: Option<LatLng>)

  /** `{}` */
  const NoLocation := BusinessLocation(None, None, None, None, None)

  /** The app-level business record; a missing string or count is "" or 0. */
  datatype Business = Business(
    id: string,
    name: string,
    description: string,
    category: string,
    services: seq<string>,
    location: Option<BusinessLocation>,
    saved: bool,
    phone: string,
    website: string,
    rating: string,
    reviews: int,
    savedAt: Option<int>)

  /** Business fields as stored: under `businessInfo`, or at the root of an older document. */
  datatype BusinessFields = BusinessFields(
    name: string,
    description: string,
    category: string,
    services: seq<string>,
    location: Option<BusinessLocation>,
    address: string,
    city: string,
    state: string,
    zip: string,
    coordinates: Option<LatLng>,
    phone: string,
    website: string,
    rating: string,
    reviews: int)

  const NoFields := BusinessFields("", "", "", [], None, "", "", "", "", None, "", "", "", 0)

  /** A document of the `savedBusinesses` collection. */
  datatype SavedDoc = SavedDoc(userId: string, businessInfo: Option<BusinessFields>, root: BusinessFields, savedAt: Option<int>)

  type Store = map<string, SavedDoc>

  const UnnamedBusiness := "Unnamed Business"
  const Uncategorized := "uncategorized"

  /** `business.name || 'Unnamed Business'`. */
  function StoredName(name: string): (r: string)
    ensures r != ""
    ensures name != "" ==> r == name
  {
    if name != "" then name else UnnamedBusiness
  }

  /** `location || {}`. */
  function LocationOrEmpty(loc: Option<BusinessLocation>): BusinessLocation {
    loc.GetOr(NoLocation)
  }

  /** An existing document of this user with the same stored name and an equal location. */
  predicate DuplicateOf(d: SavedDoc, userId: string, b: Business) {
    && d.userId == userId
    && d.businessInfo.Some?
    && d.businessInfo.value.name == StoredName(b.name)
    && LocationOrEmpty(d.businessInfo.value.location) == LocationOrEmpty(b.location)
  }

  predicate IsDuplicate(store: Store, userId: string, b: Business) {
    exists id :: id in store && DuplicateOf(store[id], userId, b)
  }

  /** The cleaned record `saveBusiness` writes under `businessInfo`. */
  function CleanFields(b: Business): (r: BusinessFields)
    ensures r.name == StoredName(b.name)
    ensures r.category != "" && (b.category != "" ==> r.category == b.category)
    ensures r.location == Some(LocationOrEmpty(b.location))
    ensures r.services == b.services && r.phone == b.phone && r.website == b.website
    ensures r.rating == b.rating && r.reviews == b.reviews && r.description == b.description
  {
    BusinessFields(StoredName(b.name), b.description,
                   if b.category != "" then b.category else Uncategorized,
                   b.services, Some(LocationOrEmpty(b.location)),
                   "", "", "", "", None, b.phone, b.website, b.rating, b.reviews)
  }

  datatype SaveError = NotAuthenticated | AlreadySaved

  /**
   * `saveBusiness`: rejects an empty user id or a caller who is not the
   * signed-in user, rejects a duplicate without writing, and otherwise
   * writes the cleaned record under the fresh id `newId`.
   */
  function SaveBusiness(store: Store, currentUser: Option<string>, userId: string, b: Business,
                        newId: string, now: int): (r: Result<(Store, string), SaveError>)
    requires newId !in store
    ensures userId == "" || currentUser != Some(userId) ==> r == Err(NotAuthenticated)
    ensures userId != "" && currentUser == Some(userId) && IsDuplicate(store, userId, b) ==> r == Err(AlreadySaved)
    ensures r.Ok? <==> userId != "" && currentUser == Some(userId) && !IsDuplicate(store, userId, b)
    ensures r.Ok? ==>
      && r.value.1 == newId
      && r.value.0.Keys == store.Keys + {newId}
      && (forall id :: id in store ==> r.value.0[id] == store[id])
      && r.value.0[newId] == SavedDoc(userId, Some(CleanFields(b)), NoFields, Some(now))
  {
    if userId == "" || currentUser != Some(userId) then Err(NotAuthenticated)
    else if IsDuplicate(store, userId, b) then Err(AlreadySaved)
    else Ok((store[newId := SavedDoc(userId, Some(CleanFields(b)), NoFields, Some(now))], newId))
  }

  /** Saving the same business again for the same user is rejected as a duplicate. */
  lemma SaveTwiceIsDuplicate(store: Store, currentUser: Option<string>, userId: string, b: Business,
                             id1: string, id2: string, now: int)
    requires id1 !in store
    requires SaveBusiness(store, currentUser, userId, b, id1, now).Ok?
    requires id2 !in SaveBusiness(store, currentUser, userId, b, id1, now).value.0
    ensures SaveBusiness(SaveBusiness(store, currentUser, userId, b, id1, now).value.0,
                         currentUser, userId, b, id2, now) == Err(AlreadySaved)
  {
    var s1 := SaveBusiness(store, currentUser, userId, b, id1, now).value.0;
    assert DuplicateOf(s1[id1], userId, b);
  }

  datatype UnsaveError = NotSignedIn | NotFound | NotOwner

  /**
   * `unsaveBusiness`: only the signed-in caller may delete, the document
   * must exist, and it must be the caller's; only then is it deleted.
   */
  function UnsaveBusiness(store: Store, currentUser: Option<string>, userId: string, saveId: string): (r: Result<Store, UnsaveError>)
    ensures currentUser != Some(userId) ==> r == Err(NotSignedIn)
    ensures currentUser == Some(userId) && saveId !in store ==> r == Err(NotFound)
    ensures currentUser == Some(userId) && saveId in store && store[saveId].userId != userId ==> r == Err(NotOwner)
    ensures r.Ok? <==> currentUser == Some(userId) && saveId in store && store[saveId].userId == userId
    ensures r.Ok? ==> r.value.Keys == store.Keys - {saveId} && forall id :: id in r.value ==> r.value[id] == store[id]
  {
    if currentUser != Some(userId) then Err(NotSignedIn)
    else if saveId !in store then Err(NotFound)
    else if store[saveId].userId != userId then Err(NotOwner)
    else Ok(store - {saveId})
  }

  /** `nested || root || ''` for one location field: a non-empty nested value takes precedence. */
  function PreferNested(nested: Option<string>, root: string): (r: string)
    ensures nested.Some? && nested.value != "" ==> r == nested.value
    ensures (nested.None? || nested.value == "") ==> r == root
  {
    if nested.Some? && nested.value != "" then nested.value else root
  }

  /** The business fields a document carries: nested when `businessInfo` is present, the root otherwise. */
  function FieldsOf(d: SavedDoc): BusinessFields {
    if d.businessInfo.Some? then d.businessInfo.value else d.root
  }

  /** The `Business` that `getSavedBusinesses` builds from one document. */
  function ToBusiness(docId: string, d: SavedDoc, now: int): (r: Business)
    ensures r.id == docId && r.saved && r.savedAt == Some(d.savedAt.GetOr(now))
    ensures var f := FieldsOf(d);
      && r.name == f.name && r.description == f.description && r.category == f.category
      && r.services == f.services && r.phone == f.phone && r.website == f.website
      && r.rating == f.rating && r.reviews == f.reviews
    ensures var f := FieldsOf(d); var n := LocationOrEmpty(f.location);
      && r.location.Some?
      && r.location.value.address == Some(PreferNested(n.address, f.address))
      && r.location.value.city == Some(PreferNested(n.city, f.city))
      && r.location.value.state == Some(PreferNested(n.state, f.state))
      && r.location.value.zip == Some(PreferNested(n.zip, f.zip))
      && r.location.value.coordinates == (if n.coordinates.Some? then n.coordinates else f.coordinates)
  {
    var f := FieldsOf(d);
    var n := LocationOrEmpty(f.location);
    Business(docId, f.name, f.description, f.category, f.services,
             Some(BusinessLocation(Some(PreferNested(n.address, f.address)), Some(PreferNested(n.city, f.city)),
                                   Some(PreferNested(n.state, f.state)), Some(PreferNested(n.zip, f.zip)),
                                   if n.coordinates.Some? then n.coordinates else f.coordinates)),
             true, f.phone, f.website, f.rating, f.reviews, Some(d.savedAt.GetOr(now)))
  }

  datatype ReadError = ReadNotAuthenticated

  /**
   * `getSavedBusinesses`: after the authentication checks, every document of
   * the query result (`docs`, in query order) becomes one saved business.
   */
  function GetSavedBusinesses(currentUser: Option<string>, userId: string, docs: seq<(string, SavedDoc)>, now: int): (r: Result<seq<Business>, ReadError>)
    ensures r.Ok? <==> userId != "" && currentUser == Some(userId)
    ensures r.Ok? ==> |r.value| == |docs|
    ensures r.Ok? ==> forall k :: 0 <= k < |docs| ==>
      r.value[k].saved && r.value[k].id == docs[k].0 && r.value[k] == ToBusiness(docs[k].0, docs[k].1, now)
  {
    if userId == "" || currentUser != Some(userId) then Err(ReadNotAuthenticated)
    else Ok(seq(|docs|, k requires 0 <= k < |docs| => ToBusiness(docs[k].0, docs[k].1, now)))
  }

  /**
   * `docs` is what the query `where('userId', '==', userId)` with
   * `orderBy('savedAt', 'desc')` returns from `store`: each of the user's
   * documents that has a `savedAt` exactly once, and nothing else (ordering
   * by a field drops the documents that lack it; the order itself is not
   * modelled).
   */
  predicate QueriedFrom(store: Store, userId: string, docs: seq<(string, SavedDoc)>) {
    && (forall k :: 0 <= k < |docs| ==>
          docs[k].0 in store && store[docs[k].0] == docs[k].1 && docs[k].1.userId == userId && docs[k].1.savedAt.Some?)
    && (forall id :: id in store && store[id].userId == userId && store[id].savedAt.Some? ==>
          exists k :: 0 <= k < |docs| && docs[k].0 == id)
    && (forall i, j :: 0 <= i < j < |docs| ==> docs[i].0 != docs[j].0)
  }

  /** A business just saved is listed, with its stored fields, by the owner's next read. */
  lemma {:induction false} SavedIsListed(store: Store, currentUser: Option<string>, userId: string, b: Business,
                                         newId: string, now: int, docs: seq<(string, SavedDoc)>, later: int)
    requires newId !in store
    requires SaveBusiness(store, currentUser, userId, b, newId, now).Ok?
    requires QueriedFrom(SaveBusiness(store, currentUser, userId, b, newId, now).value.0, userId, docs)
    ensures GetSavedBusinesses(currentUser, userId, docs, later).Ok?
    ensures var after := SaveBusiness(store, currentUser, userId, b, newId, now).value.0;
      exists k :: 0 <= k < |docs| &&
        GetSavedBusinesses(currentUser, userId, docs, later).value[k] == ToBusiness(newId, after[newId], later)
  {
    var after := SaveBusiness(store, currentUser, userId, b, newId, now).value.0;
    assert newId in after && after[newId].userId == userId && after[newId].savedAt.Some?;
    var k :| 0 <= k < |docs| && docs[k].0 == newId;
    assert GetSavedBusinesses(currentUser, userId, docs, later).value[k] == ToBusiness(newId, after[newId], later);
  }

  /** A business written by `saveBusiness` reads back with its defaults applied and its location intact. */
  lemma SaveThenRead(store: Store, currentUser: Option<string>, userId: string, b: Business, newId: string, now: int, later: int)
    requires newId !in store
    requires SaveBusiness(store, currentUser, userId, b, newId, now).Ok?
    ensures var d := SaveBusiness(store, currentUser, userId, b, newId, now).value.0[newId];
      var r := ToBusiness(newId, d, later);
      var l := LocationOrEmpty(b.location);
      && r.id == newId && r.saved && r.savedAt == Some(now)
      && r.name == StoredName(b.name) && r.category == CleanFields(b).category
      && r.services == b.services && r.phone == b.phone && r.website == b.website
      && r.rating == b.rating && r.reviews == b.reviews
      && r.location == Some(BusinessLocation(Some(l.address.GetOr("")), Some(l.city.GetOr("")),
                                             Some(l.state.GetOr("")), Some(l.zip.GetOr("")), l.coordinates))
  {
  }

  /** The search predicate on one business, for an already lower-cased query. */
  predicate MatchesQuery(b: Business, q: string) {
    || Contains(Lower(b.name), q)
    || Contains(Lower(b.description), q)
    || (exists k :: 0 <= k < |b.services| && Contains(Lower(b.services[k]), q))
    || (b.phone != "" && Contains(Lower(b.phone), q))
  }

  /**
   * The client-side part of `searchBusinesses`: no query keeps every fetched
   * result; a query keeps, in order, exactly those that match it.
   */
  function SearchFilter(fetched: seq<Business>, query: string): (r: seq<Business>)
    ensures query == "" ==> r == fetched
    ensures query != "" ==>
      && IsSubsequence(r, fetched)
      && (forall k :: 0 <= k < |r| ==> MatchesQuery(r[k], Lower(query)))
      && (forall k :: 0 <= k < |fetched| && MatchesQuery(fetched[k], Lower(query)) ==> fetched[k] in r)
      && (forall k :: 0 <= k < |fetched| && MatchesQuery(fetched[k], Lower(query)) ==>
            multiset(r)[fetched[k]] == multiset(fetched)[fetched[k]])
  {
    if query == "" then fetched
    else
      var q := Lower(query);
      Filter(fetched, b => MatchesQuery(b, q))
  }
}

=== FILE: chat_interface.dfy ===
/**
 * The chat screen's state transitions: the "near me" query rewrite, the send
 * guard, the normalisation of the search server's reply into an AI message,
 * suggestion visibility on the message list, and the typed reveal of an AI
 * reply.
 *
 * The server call is an outcome parameter; `Date.now()` (the user message id)
 * is a parameter; the stage timers and scrolling are not modelled.
 */
module ChatInterface {
  import opened Wrappers
  import opened Text
  import Location

  datatype Sender = User | Ai

  /** A provider listing as the server returns it; its fields are carried, never inspected. */
  datatype Provider = Provider(name: string, phone: Option<string>, address: Option<string>, details: Option<string>)

  /** A chat bubble; a missing `suggestionsVisible` reads as false. */
  datatype Message = Message(
    id: int,
    sender: Sender,
    text: string,
    fullText: Option<string>,
    providers: Option<seq<Provider>>,
    suggestions: Option<seq<string>>,
    suggestionsVisible: bool)

  datatype AiStage = Idle | Thinking | Searching | Organizing

  datatype ChatState = ChatState(
    messages: seq<Message>,
    stage: AiStage,
    location: Option<Location.UserLocation>,
    showLocationModal: bool)

  const NearMe := "near me"
  const DefaultPrompt := "I can certainly help. What service are you looking for today?"
  const ServerTrouble := "I'm having trouble reaching the server. Please try again."
  const TroubleSuggestions: seq<string> := ["Plumber near me", "Electrician near me"]

  /** `text.toLowerCase().includes('near me')`. */
  predicate HasNearMe(text: string) {
    Contains(Lower(text), NearMe)
  }

  /** The case-insensitive pattern /near me/i matches at the start of `text`. */
  predicate NearMeFirst(text: string) {
    |text| >= |NearMe| && Lower(text[..|NearMe|]) == NearMe
  }

  /** The number of matches a left-to-right global scan for /near me/i finds. */
  function CountNearMe(text: string): nat
    decreases |text|
  {
    if |text| < |NearMe| then 0
    else if NearMeFirst(text) then 1 + CountNearMe(text[|NearMe|..])
    else CountNearMe(text[1..])
  }

  /** `text.replace(/near me/gi, rep)`: every match, scanning left to right, becomes `rep`. */
  function ReplaceNearMe(text: string, rep: string): (r: string)
    ensures CountNearMe(text) == 0 ==> r == text
    decreases |text|
  {
    if |text| < |NearMe| then text
    else if NearMeFirst(text) then rep + ReplaceNearMe(text[|NearMe|..], rep)
    else
      var rest := ReplaceNearMe(text[1..], rep);
      assert CountNearMe(text[1..]) == 0 ==> [text[0]] + text[1..] == text;
      [text[0]] + rest
  }

  /** Each match replaced changes the length by the difference between `rep` and "near me". */
  lemma {:induction false} ReplaceNearMeLength(text: string, rep: string)
    ensures |ReplaceNearMe(text, rep)| == |text| + CountNearMe(text) * (|rep| - |NearMe|)
    decreases |text|
  {
    if |text| >= |NearMe| {
      var n, d := |NearMe|, |rep| - |NearMe|;
      if NearMeFirst(text) {
        var tail := text[n..];
        ReplaceNearMeLength(tail, rep);
        var c := CountNearMe(tail);
        assert |ReplaceNearMe(text, rep)| == |rep| + |tail| + c * d;
        assert CountNearMe(text) == 1 + c;
        Distribute(c, d);
      } else {
        ReplaceNearMeLength(text[1..], rep);
        assert |ReplaceNearMe(text, rep)| == 1 + |ReplaceNearMe(text[1..], rep)|;
        assert CountNearMe(text) == CountNearMe(text[1..]);
      }
    }
  }

  /** Replacing every match by "near me" itself gives back the text up to case: no letter moves. */
  lemma {:induction false} ReplaceByNearMeKeepsLower(text: string)
    ensures Lower(ReplaceNearMe(text, NearMe)) == Lower(text)
    decreases |text|
  {
    if |text| >= |NearMe| {
      if NearMeFirst(text) {
        var tail := text[|NearMe|..];
        ReplaceByNearMeKeepsLower(tail);
        Text.LowerAppend(NearMe, ReplaceNearMe(tail, NearMe));
        assert text == text[..|NearMe|] + tail;
        Text.LowerAppend(text[..|NearMe|], tail);
        assert Lower(NearMe) == NearMe;
      } else {
        ReplaceByNearMeKeepsLower(text[1..]);
        Text.LowerAppend([text[0]], ReplaceNearMe(text[1..], NearMe));
        assert text == [text[0]] + text[1..];
        Text.LowerAppend([text[0]], text[1..]);
      }
    }
  }

  /**
   * The replacement lands where the first match is: everything before it is
   * kept as typed, the match becomes `rep`, and the scan resumes after it.
   */
  lemma {:induction false} ReplaceAtFirstMatch(text: string, rep: string, i: nat)
    requires i <= |text| && NearMeFirst(text[i..])
    requires forall j :: 0 <= j < i ==> !NearMeFirst(text[j..])
    ensures i + |NearMe| <= |text|
    ensures ReplaceNearMe(text, rep) == text[..i] + rep + ReplaceNearMe(text[i + |NearMe|..], rep)
    decreases i
  {
    if i == 0 {
      assert text[0..] == text;
      ReplaceAtStart(text, rep);
    } else {
      var tail := text[1..];
      NoMatchInTail(text, i);
      assert tail[i - 1..] == text[i..];
      ReplaceAtFirstMatch(tail, rep, i - 1);
      assert tail[i - 1 + |NearMe|..] == text[i + |NearMe|..];
      assert tail[..i - 1] == text[1..i];
      ReplaceSkipsFirst(text, i, rep, ReplaceNearMe(text[i + |NearMe|..], rep));
    }
  }

  lemma ReplaceAtStart(text: string, rep: string)
    requires NearMeFirst(text)
    ensures ReplaceNearMe(text, rep) == [] + rep + ReplaceNearMe(text[|NearMe|..], rep)
  {
  }

  lemma NoMatchInTail(text: string, i: nat)
    requires 1 <= i <= |text|
    requires forall j :: 0 <= j < i ==> !NearMeFirst(text[j..])
    ensures forall j :: 0 <= j < i - 1 ==> !NearMeFirst(text[1..][j..])
    ensures !NearMeFirst(text[0..])
  {
    assert text[0..] == text;
    forall j | 0 <= j < i - 1
      ensures !NearMeFirst(text[1..][j..])
    {
      assert text[1..][j..] == text[j + 1..];
    }
  }

  lemma ReplaceSkipsFirst(text: string, i: nat, rep: string, after: string)
    requires |NearMe| <= |text| && !NearMeFirst(text) && 1 <= i <= |text|
    requires ReplaceNearMe(text[1..], rep) == text[1..i] + rep + after
    ensures ReplaceNearMe(text, rep) == text[..i] + rep + after
  {
    assert ReplaceNearMe(text, rep) == [text[0]] + ReplaceNearMe(text[1..], rep);
    assert text[..i] == [text[0]] + text[1..i];
    assert [text[0]] + (text[1..i] + rep + after) == ([text[0]] + text[1..i]) + rep + after;
  }

  lemma Distribute(c: int, d: int)
    ensures (1 + c) * d == d + c * d
  {
  }

  /** The `includes` guard and the global regex agree: a match exists exactly when the scan counts one. */
  lemma {:induction false} HasNearMeIffCounted(text: string)
    ensures HasNearMe(text) <==> CountNearMe(text) > 0
    decreases |text|
  {
    var low := Lower(text);
    if |text| < |NearMe| {
      ContainsAt(low, NearMe);
    } else {
      assert low[..|NearMe|] == Lower(text[..|NearMe|]);
      assert low[1..] == Lower(text[1..]);
      if !NearMeFirst(text) {
        HasNearMeIffCounted(text[1..]);
      }
    }
  }

  /**
   * `formatLocationForAPI` of the chat screen: with a location set, every
   * "near me" becomes "in <location>"; otherwise the text is sent as typed.
   */
  function FormatQuery(text: string, location: Option<Location.UserLocation>): (r: string)
    ensures !HasNearMe(text) || location.None? ==> r == text
    ensures HasNearMe(text) && location.Some? ==>
      var rep := "in " + Location.FormatForApi(location.value);
      && CountNearMe(text) >= 1
      && |r| == |text| + CountNearMe(text) * (|rep| - |NearMe|)
      && r == ReplaceNearMe(text, rep)
  {
    if HasNearMe(text) && location.Some? then
      var rep := "in " + Location.FormatForApi(location.value);
      HasNearMeIffCounted(text);
      ReplaceNearMeLength(text, rep);
      ReplaceNearMe(text, rep)
    else text
  }

  /** What the search server answered; `None` stands for a field that is missing or not an array. */
  datatype ServerReply =
    | Unreachable
    | Reply(message: Option<string>, providers: Option<seq<Provider>>, suggestions: Option<seq<string>>)

  /** `Array.isArray(x) && x.length ? x : null`. */
  function NonEmptyOrNull<T>(x: Option<seq<T>>): (r: Option<seq<T>>)
    ensures r.Some? <==> x.Some? && |x.value| > 0
    ensures r.Some? ==> r == x
  {
    if x.Some? && |x.value| > 0 then x else None
  }

  /** `data.message ?? (providers ? "I found N providers." : <default prompt>)`. */
  function ReplyText(message: Option<string>, providers: Option<seq<Provider>>): (r: string)
    ensures message.Some? ==> r == message.value
    ensures message.None? && providers.Some? ==> r == "I found " + NatToString(|providers.value|) + " providers."
    ensures message.None? && providers.None? ==> r == DefaultPrompt
  {
    match message
    case Some(m) => m
    case None =>
      if providers.Some? then "I found " + NatToString(|providers.value|) + " providers."
      else DefaultPrompt
  }

  /** The AI message built from the server's reply (or its failure), to be revealed from empty text. */
  function AiMessage(id: int, reply: ServerReply): (r: Message)
    ensures r.id == id && r.sender == Ai && r.text == "" && r.fullText.Some?
    ensures r.providers.Some? ==> |r.providers.value| > 0
    ensures r.suggestions.Some? ==> |r.suggestions.value| > 0
    ensures r.suggestionsVisible <==> r.suggestions.Some?
    ensures reply.Unreachable? ==>
      r.fullText == Some(ServerTrouble) && r.providers == None && r.suggestions == Some(TroubleSuggestions)
    ensures reply.Reply? ==>
      && (r.providers.Some? <==> reply.providers.Some? && |reply.providers.value| > 0)
      && (r.suggestions.Some? <==> reply.suggestions.Some? && |reply.suggestions.value| > 0)
      && (reply.message.Some? ==> r.fullText == reply.message)
      && r.providers == NonEmptyOrNull(reply.providers)
      && r.suggestions == NonEmptyOrNull(reply.suggestions)
      && r.fullText == Some(ReplyText(reply.message, NonEmptyOrNull(reply.providers)))
  {
    match reply
    case Unreachable =>
      Message(id, Ai, "", Some(ServerTrouble), None, Some(TroubleSuggestions), true)
    case Reply(message, providers, suggestions) =>
      var ps := NonEmptyOrNull(providers);
      var ss := NonEmptyOrNull(suggestions);
      Message(id, Ai, "", Some(ReplyText(message, ps)), ps, ss, ss.Some?)
  }

  /** `prev.map(msg => ({...msg, suggestionsVisible: false}))`. */
  function HideAllSuggestions(ms: seq<Message>): (r: seq<Message>)
    ensures |r| == |ms|
    ensures forall k :: 0 <= k < |ms| ==> r[k] == ms[k].(suggestionsVisible := false)
  {
    seq(|ms|, k requires 0 <= k < |ms| => ms[k].(suggestionsVisible := false))
  }

  /** `prev.map(msg => msg.id === id ? {...msg, suggestionsVisible: false} : msg)`. */
  function HideSuggestionsOf(ms: seq<Message>, id: int): (r: seq<Message>)
    ensures |r| == |ms|
    ensures forall k :: 0 <= k < |ms| && ms[k].id == id ==> r[k] == ms[k].(suggestionsVisible := false)
    ensures forall k :: 0 <= k < |ms| && ms[k].id != id ==> r[k] == ms[k]
  {
    seq(|ms|, k requires 0 <= k < |ms| => if ms[k].id == id then ms[k].(suggestionsVisible := false) else ms[k])
  }

  /** The list after a completed send: every earlier message with its suggestions hidden, then the two new ones. */
  function AppendExchange(ms: seq<Message>, user: Message, ai: Message): (r: seq<Message>)
    ensures |r| == |ms| + 2
    ensures forall k :: 0 <= k < |ms| ==> r[k] == ms[k].(suggestionsVisible := false)
    ensures r[|ms|] == user && r[|ms| + 1] == ai
    ensures !user.suggestionsVisible ==> forall k :: 0 <= k < |r| - 1 ==> !r[k].suggestionsVisible
  {
    HideAllSuggestions(ms) + [user, ai]
  }

  /** The state after a send attempt and the query posted to the server, if one was posted. */
  datatype SendOutcome = SendOutcome(state: ChatState, query: Option<string>)

  predicate IsBlank(text: string) {
    Trim(text) == ""
  }

  /**
   * `handleSendMessage`, run to completion: a blank text or a busy stage does
   * nothing; a "near me" query without a location opens the location modal;
   * otherwise all suggestions are hidden, the user message and then the AI
   * message (id + 1) are appended, and the stage returns to idle.
   */
  function SendMessage(s: ChatState, text: string, userMessageId: int, reply: ServerReply): (r: SendOutcome)
    ensures IsBlank(text) || s.stage != Idle ==> r == SendOutcome(s, None)
    ensures r.query.Some? <==> !IsBlank(text) && s.stage == Idle && (s.location.Some? || !HasNearMe(text))
    ensures r.query.None? ==>
      r.state == s.(showLocationModal := s.showLocationModal || (!IsBlank(text) && s.stage == Idle))
    ensures r.query.Some? ==> r.query.value == FormatQuery(text, s.location)
    ensures r.query.Some? ==>
      && r.state.stage == Idle
      && r.state.location == s.location
      && r.state.showLocationModal == s.showLocationModal
      && |r.state.messages| == |s.messages| + 2
      && (forall k :: 0 <= k < |s.messages| ==> r.state.messages[k] == s.messages[k].(suggestionsVisible := false))
      && r.state.messages[|s.messages|] == Message(userMessageId, User, text, None, None, None, false)
      && r.state.messages[|s.messages| + 1] == AiMessage(userMessageId + 1, reply)
  {
    if IsBlank(text) || s.stage != Idle then SendOutcome(s, None)
    else if HasNearMe(text) && s.location.None? then SendOutcome(s.(showLocationModal := true), None)
    else
      var user := Message(userMessageId, User, text, None, None, None, false);
      var ai := AiMessage(userMessageId + 1, reply);
      SendOutcome(s.(messages := AppendExchange(s.messages, user, ai), stage := Idle),
                  Some(FormatQuery(text, s.location)))
  }

  /** After any completed send, only the new AI message can be showing suggestions. */
  lemma SendLeavesOnlyNewSuggestions(s: ChatState, text: string, id: int, reply: ServerReply)
    requires !IsBlank(text) && s.stage == Idle && (s.location.Some? || !HasNearMe(text))
    ensures var ms := SendMessage(s, text, id, reply).state.messages;
      forall k :: 0 <= k < |ms| - 1 ==> !ms[k].suggestionsVisible
  {
    var user := Message(id, User, text, None, None, None, false);
    assert SendMessage(s, text, id, reply).state.messages == AppendExchange(s.messages, user, AiMessage(id + 1, reply));
  }

  /** Hiding one message's suggestions first is absorbed by the send, which hides them all. */
  lemma HideThenAppend(ms: seq<Message>, id: int, user: Message, ai: Message)
    ensures AppendExchange(HideSuggestionsOf(ms, id), user, ai) == AppendExchange(ms, user, ai)
  {
    var a, b := AppendExchange(HideSuggestionsOf(ms, id), user, ai), AppendExchange(ms, user, ai);
    assert forall k :: 0 <= k < |a| ==> a[k] == b[k];
  }

  /**
   * `handleSuggestionSelect`: the chosen message's suggestions are hidden
   * first (whatever the send then does), and the suggestion is sent as if
   * it had been typed.
   */
  function SelectSuggestion(s: ChatState, text: string, messageId: int, userMessageId: int, reply: ServerReply): (r: SendOutcome)
    ensures r.query == SendMessage(s, text, userMessageId, reply).query
    ensures r.query.Some? ==> r.state == SendMessage(s, text, userMessageId, reply).state
    ensures r.query.None? ==>
      r.state == s.(messages := HideSuggestionsOf(s.messages, messageId),
                    showLocationModal := s.showLocationModal || (!IsBlank(text) && s.stage == Idle))
  {
    var hidden := s.(messages := HideSuggestionsOf(s.messages, messageId));
    var r := SendMessage(hidden, text, userMessageId, reply);
    if r.query.Some? then
      HideThenAppend(s.messages, messageId, Message(userMessageId, User, text, None, None, None, false),
                     AiMessage(userMessageId + 1, reply));
      r
    else r
  }

  /**
   * The typed reveal of one text: what is displayed, the interval's tick
   * count, whether the interval is still running, the completion flag kept
   * across runs, and how many times `onComplete` fired in this run.
   */
  datatype Reveal = Reveal(text: string, display: string, index: nat, running: bool, done: bool, fired: nat)

  /** The reveal's invariant: the display is a prefix of the text, and completion fires at most once. */
  predicate RevealValid(r: Reveal) {
    && |r.display| <= |r.text| && r.display == r.text[..|r.display|]
    && r.fired <= 1
    && (r.running ==> r.index < |r.text| && r.display == r.text[..r.index] && !r.done && r.fired == 0)
  }

  /** The effect run for a new `text`/`isTyping`; `wasDone` is the completion flag left by the previous run. */
  function StartReveal(text: string, isTyping: bool, wasDone: bool): (r: Reveal)
    ensures RevealValid(r)
    ensures text == "" ==> r.display == "" && r.done && r.fired == 0
    ensures text != "" && !isTyping ==> r.display == text && r.done && (r.fired == 1 <==> !wasDone)
    ensures text != "" && isTyping ==> r.display == "" && r.running
  {
    if text == "" then Reveal(text, "", 0, false, true, 0)
    else if !isTyping then Reveal(text, text, 0, false, true, if wasDone then 0 else 1)
    else Reveal(text, "", 0, true, false, 0)
  }

  /** One interval tick: show one more character; at the end stop and complete once. */
  function Tick(r: Reveal): (r': Reveal)
    requires RevealValid(r)
    ensures RevealValid(r')
    ensures r'.text == r.text && r'.fired >= r.fired
    ensures r.running ==> |r'.display| == |r.display| + 1
  {
    if !r.running then r
    else
      var i := r.index + 1;
      var display := r.text[..i];
      if i >= |r.text| then Reveal(r.text, display, i, false, true, r.fired + 1)
      else Reveal(r.text, display, i, true, r.done, r.fired)
  }

  /** `n` interval ticks. */
  function Ticks(r: Reveal, n: nat): (r': Reveal)
    requires RevealValid(r)
    ensures RevealValid(r')
    decreases n
  {
    if n == 0 then r else Ticks(Tick(r), n - 1)
  }

  /**
   * A typed reveal of a non-empty text shows its first n characters after n
   * ticks, and after |text| ticks shows all of it, has stopped, and has fired
   * `onComplete` exactly once — however many further ticks arrive.
   */
  lemma {:induction false} RevealProgress(text: string, wasDone: bool, n: nat)
    requires text != ""
    ensures var r := Ticks(StartReveal(text, true, wasDone), n);
      if n < |text| then r == Reveal(text, text[..n], n, true, false, 0)
      else r == Reveal(text, text, |text|, false, true, 1)
  {
    if n > 0 {
      RevealProgress(text, wasDone, n - 1);
      var start := StartReveal(text, true, wasDone);
      TicksLast(start, n - 1);
      if n - 1 >= |text| {
      } else {
        assert text[..n] == text[..|text|] || n < |text|;
      }
    }
  }

  /** Ticking n+1 times is ticking n times and then once more. */
  lemma {:induction false} TicksLast(r: Reveal, n: nat)
    requires RevealValid(r)
    ensures Ticks(r, n + 1) == Tick(Ticks(r, n))
    decreases n
  {
    if n > 0 {
      TicksLast(Tick(r), n - 1);
    }
  }
}

=== FILE: chat_sessions.dfy ===
/**
 * The chat-session store: creating a session, appending a message, and
 * reading the most recent messages with `Array.prototype.slice(-limit)`.
 *
 * The `chatSessions` collection is a map; fresh ids (`addDoc`,
 * `crypto.randomUUID`) and the clock are parameters.
 */
module ChatSessions {
  import opened Wrappers

  datatype MessageKind = UserMessage | AssistantMessage

  datatype ChatMessage = ChatMessage(id: string, userId: string, content: string, timestamp: int, kind: MessageKind)

  /** A message as the caller hands it over, before it is given an id. */
  datatype NewMessage = NewMessage(userId: string, content: string, timestamp: int, kind: MessageKind)

  datatype ChatSession = ChatSession(
    userId: string,
    title: string,
    createdAt: int,
    updatedAt: int,
    lastMessage: Option<string>,
    messages: seq<ChatMessage>)

  type Sessions = map<string, ChatSession>

  const DefaultRecentLimit := 50

  /** `createSession`: a new session under the fresh id, with no messages. */
  function CreateSession(store: Sessions, userId: string, title: string, newId: string, now: int): (r: (Sessions, string))
    requires newId !in store
    ensures r.1 == newId && r.0.Keys == store.Keys + {newId}
    ensures forall id :: id in store ==> r.0[id] == store[id]
    ensures r.0[newId].messages == [] && r.0[newId].userId == userId && r.0[newId].title == title
    ensures r.0[newId].lastMessage == None
  {
    (store[newId := ChatSession(userId, title, now, now, None, [])], newId)
  }

  datatype SessionError = SessionNotFound

  /**
   * `addMessage`: fails on a missing session; otherwise appends the message
   * with the supplied id and records its content as the last message.
   */
  function AddMessage(store: Sessions, sessionId: string, m: NewMessage, freshId: string, now: int): (r: Result<(Sessions, string), SessionError>)
    ensures sessionId !in store <==> r == Err(SessionNotFound)
    ensures r.Ok? ==>
      var (s, id) := r.value;
      var before := store[sessionId];
      && id == freshId
      && s.Keys == store.Keys
      && (forall k :: k in store && k != sessionId ==> s[k] == store[k])
      && s[sessionId].messages == before.messages + [ChatMessage(freshId, m.userId, m.content, m.timestamp, m.kind)]
      && s[sessionId].lastMessage == Some(m.content)
      && s[sessionId].updatedAt == now
      && s[sessionId].userId == before.userId && s[sessionId].title == before.title && s[sessionId].createdAt == before.createdAt
  {
    if sessionId !in store then Err(SessionNotFound)
    else
      var session := store[sessionId];
      var added := ChatMessage(freshId, m.userId, m.content, m.timestamp, m.kind);
      Ok((store[sessionId := session.(messages := session.messages + [added],
                                      lastMessage := Some(m.content),
                                      updatedAt := now)], freshId))
  }

  /** `s.slice(start)`: a negative start counts from the end, and both kinds are clamped to the length. */
  function SliceFrom<T>(s: seq<T>, start: int): (r: seq<T>)
    ensures |r| <= |s| && r == s[|s| - |r|..]
  {
    var from := if start < 0 then (if |s| + start < 0 then 0 else |s| + start)
                else (if start > |s| then |s| else start);
    s[from..]
  }

  /** `getRecentMessages(sessionId, limit)`: an absent session gives none; otherwise `messages.slice(-limit)`. */
  function GetRecentMessages(store: Sessions, sessionId: string, limit: int): (r: seq<ChatMessage>)
    ensures sessionId !in store ==> r == []
    ensures sessionId in store ==> var ms := store[sessionId].messages;
      && (limit >= 1 ==> r == ms[|ms| - (if limit < |ms| then limit else |ms|)..])
      && (limit == 0 ==> r == ms)
      && (limit < 0 ==> r == ms[(if -limit < |ms| then -limit else |ms|)..])
  {
    if sessionId !in store then [] else SliceFrom(store[sessionId].messages, -limit)
  }

  /** `getRecentMessages(sessionId)` with its default limit of 50. */
  function GetRecentMessagesDefault(store: Sessions, sessionId: string): (r: seq<ChatMessage>)
    ensures sessionId in store && |store[sessionId].messages| <= DefaultRecentLimit ==> r == store[sessionId].messages
    ensures |r| <= DefaultRecentLimit
    ensures sessionId in store ==> r == GetRecentMessages(store, sessionId, DefaultRecentLimit)
    ensures sessionId in store ==> var ms := store[sessionId].messages;
      |ms| > DefaultRecentLimit ==> r == ms[|ms| - DefaultRecentLimit..]
  {
    GetRecentMessages(store, sessionId, DefaultRecentLimit)
  }

  /** After an append, the most recent message is the one just added. */
  lemma AddThenLatest(store: Sessions, sessionId: string, m: NewMessage, freshId: string, now: int)
    requires sessionId in store
    ensures var s := AddMessage(store, sessionId, m, freshId, now).value.0;
      GetRecentMessages(s, sessionId, 1) == [ChatMessage(freshId, m.userId, m.content, m.timestamp, m.kind)]
  {
  }

  /** A new session reads back empty, whatever the limit. */
  lemma CreatedSessionIsEmpty(store: Sessions, userId: string, title: string, newId: string, now: int, limit: int)
    requires newId !in store
    ensures GetRecentMessages(CreateSession(store, userId, title, newId, now).0, newId, limit) == []
  {
  }
}

=== FILE: location.dfy ===
/**
 * The location service: normalising a reverse-geocode reply into a
 * `UserLocation`, the three-step fallback ladder around it, the manual-text
 * parser, the 24-hour recency test, the display/API formatters and the
 * single-slot location cache.
 *
 * Device positioning, the two reverse-geocode HTTP calls and the profile
 * write are outcomes supplied by the caller; "now" is a parameter.
 */
module Location {
  import opened Wrappers
  import opened Text

  datatype Coordinates = Coordinates(latitude: real, longitude: real)

  /** How a location was obtained. */
  datatype Source = Gps | Manual

  /** The canonical location record; `lastUpdated` is milliseconds since the epoch. */
  datatype UserLocation = UserLocation(
    area: string,
    city: string,
    state: Option<string>,
    country: string,
    fullAddress: string,
    coordinates: Option<Coordinates>,
    lastUpdated: int,
    source: Source)

  const AreaSentinel := "your area"
  const CitySentinel := "your location"
  const UnknownCountry := "unknown"
  const CoordinatesOnlyAddress := "your current location"
  const Separator := ", "

  /** A reverse-geocode address breakdown: component name to value. */
  type Address = map<string, string>

  /** `address.key`, with a missing component read as the empty string. */
  function Component(a: Address, key: string): string {
    if key in a then a[key] else ""
  }

  const AreaKeys: seq<string> :=
    ["suburb", "neighbourhood", "residential", "quarter", "district", "hamlet", "village", "locality"]
  const CityKeys: seq<string> := ["city", "town", "municipality", "county"]
  const StateKeys: seq<string> := ["state", "province", "region"]

  /** The position of the first key whose component is non-empty, or `|keys|` if there is none. */
  function FirstNonEmptyIndex(a: Address, keys: seq<string>): (k: nat)
    ensures k <= |keys|
    ensures forall j :: 0 <= j < k ==> Component(a, keys[j]) == ""
    ensures k < |keys| ==> Component(a, keys[k]) != ""
    decreases |keys|
  {
    if |keys| == 0 then 0
    else if Component(a, keys[0]) != "" then 0
    else 1 + FirstNonEmptyIndex(a, keys[1..])
  }

  /** `address.k0 || address.k1 || … || ''`. */
  function FirstNonEmpty(a: Address, keys: seq<string>): (r: string)
    ensures r == "" <==> forall j :: 0 <= j < |keys| ==> Component(a, keys[j]) == ""
    ensures r != "" ==> r == Component(a, keys[FirstNonEmptyIndex(a, keys)])
  {
    var k := FirstNonEmptyIndex(a, keys);
    if k < |keys| then Component(a, keys[k]) else ""
  }

  /** `parts[0] || 'your area'`. */
  function SegmentArea(parts: seq<string>): (r: string)
    requires |parts| >= 1
    ensures r != ""
    ensures parts[0] != "" ==> r == parts[0]
    ensures parts[0] == "" ==> r == AreaSentinel
  {
    if parts[0] != "" then parts[0] else AreaSentinel
  }

  /** `parts[1] || parts[0] || 'your location'`. */
  function SegmentCity(parts: seq<string>): (r: string)
    requires |parts| >= 1
    ensures r != ""
    ensures r == parts[0] || (|parts| >= 2 && r == parts[1]) || r == CitySentinel
    ensures |parts| >= 2 && parts[1] != "" ==> r == parts[1]
    ensures (|parts| < 2 || parts[1] == "") && parts[0] != "" ==> r == parts[0]
    ensures (|parts| < 2 || parts[1] == "") && parts[0] == "" ==> r == CitySentinel
  {
    if |parts| >= 2 && parts[1] != "" then parts[1]
    else if parts[0] != "" then parts[0]
    else CitySentinel
  }

  /** The segments of `fullAddress` the detailed path keeps, in order. */
  function GpsAddressParts(area: string, city: string, state: string, country: string): (r: seq<string>)
    ensures forall k :: 0 <= k < |r| ==> r[k] != "" || area == "" || city == ""
    ensures |r| <= 4
  {
    (if area != "" && area != AreaSentinel then [area] else [])
    + (if city != "" && city != area && city != CitySentinel then [city] else [])
    + (if state != "" then [state] else [])
    + (if country != "" then [country] else [])
  }

  /**
   * The detailed reverse-geocode path: resolve area, city, state and country
   * from the component priority lists, fall back on the display name when
   * both area and city are missing, substitute sentinels and build
   * `fullAddress`.
   */
  function Normalise(a: Address, displayName: string, coords: Coordinates, now: int): (r: UserLocation)
    ensures r.area != "" && r.city != "" && r.country != "" && r.fullAddress != ""
    ensures r.coordinates == Some(coords) && r.source == Gps && r.lastUpdated == now
    ensures r.fullAddress == GpsFullAddress(r.area, r.city, FirstNonEmpty(a, StateKeys), Component(a, "country"))
    ensures FirstNonEmpty(a, AreaKeys) != "" ==> r.area == FirstNonEmpty(a, AreaKeys)
    ensures FirstNonEmpty(a, CityKeys) != "" ==> r.city == FirstNonEmpty(a, CityKeys)
    ensures r.state == (if FirstNonEmpty(a, StateKeys) == "" then None else Some(FirstNonEmpty(a, StateKeys)))
    ensures r.country == (if Component(a, "country") == "" then UnknownCountry else Component(a, "country"))
    ensures FirstNonEmpty(a, AreaKeys) == "" && FirstNonEmpty(a, CityKeys) == "" && displayName != "" ==>
      r.area == SegmentArea(SplitTrim(displayName, ',')) && r.city == SegmentCity(SplitTrim(displayName, ','))
    ensures FirstNonEmpty(a, AreaKeys) == "" && (FirstNonEmpty(a, CityKeys) != "" || displayName == "") ==>
      r.area == AreaSentinel
    ensures FirstNonEmpty(a, CityKeys) == "" && (FirstNonEmpty(a, AreaKeys) != "" || displayName == "") ==>
      r.city == CitySentinel
  {
    var state := FirstNonEmpty(a, StateKeys);
    var country := Component(a, "country");
    var (area, city) := AreaAndCity(FirstNonEmpty(a, AreaKeys), FirstNonEmpty(a, CityKeys), displayName);
    UserLocation(area, city, if state != "" then Some(state) else None,
                 if country != "" then country else UnknownCountry,
                 GpsFullAddress(area, city, state, country), Some(coords), now, Gps)
  }

  /**
   * Area and city of the detailed path from the components found: the
   * display name's segments when both are missing, then the sentinels.
   */
  function AreaAndCity(area: string, city: string, displayName: string): (r: (string, string))
    ensures r.0 != "" && r.1 != ""
    ensures area != "" ==> r.0 == area
    ensures city != "" ==> r.1 == city
    ensures area == "" && city == "" && displayName != "" ==>
      r == (SegmentArea(SplitTrim(displayName, ',')), SegmentCity(SplitTrim(displayName, ',')))
    ensures area == "" && (city != "" || displayName == "") ==> r.0 == AreaSentinel
    ensures city == "" && (area != "" || displayName == "") ==> r.1 == CitySentinel
  {
    if area == "" && city == "" && displayName != "" then
      var parts := SplitTrim(displayName, ',');
      (SegmentArea(parts), SegmentCity(parts))
    else
      (if area == "" then AreaSentinel else area, if city == "" then CitySentinel else city)
  }

  /** The detailed path's `fullAddress`: the kept segments comma-joined, or "your area" when none is kept. */
  function GpsFullAddress(area: string, city: string, state: string, country: string): (r: string)
    requires area != "" && city != ""
    ensures r != ""
    ensures GpsAddressParts(area, city, state, country) == [] ==> r == AreaSentinel
  {
    var parts := GpsAddressParts(area, city, state, country);
    if parts != [] then
      assert parts[0] != "";
      Join(parts, Separator)
    else AreaSentinel
  }

  /**
   * The coarse reverse-geocode path: area and city from the first two
   * trimmed segments of the display name, city suppressed when it repeats
   * the area, and `fullAddress` the first two segments re-joined.
   */
  function CoarseLocation(displayName: string, coords: Coordinates, now: int): (r: UserLocation)
    requires displayName != ""
    ensures r.area != "" && r.city != "" && r.fullAddress != ""
    ensures r.city != r.area || r.area == CitySentinel
    ensures r.country == UnknownCountry && r.state == None
    ensures r.coordinates == Some(coords) && r.source == Gps && r.lastUpdated == now
    ensures SplitTrim(displayName, ',')[0] != "" ==> r.area == SplitTrim(displayName, ',')[0]
    ensures var parts := SplitTrim(displayName, ',');
      |parts| >= 2 && parts[0] != "" && parts[1] != "" && parts[1] != parts[0] ==> r.city == parts[1]
    ensures var parts := SplitTrim(displayName, ',');
      && r.area == SegmentArea(parts)
      && (SegmentCity(parts) == r.area ==> r.city == CitySentinel)
      && (SegmentCity(parts) != r.area ==> r.city == SegmentCity(parts))
    ensures var parts := SplitTrim(displayName, ',');
      r.fullAddress == (if FirstTwoJoined(parts) != "" then FirstTwoJoined(parts) else r.area)
  {
    var parts := SplitTrim(displayName, ',');
    var area := SegmentArea(parts);
    var city := CoarseCity(parts, area);
    var joined := FirstTwoJoined(parts);
    UserLocation(area, city, None, UnknownCountry,
                 if joined != "" then joined else area, Some(coords), now, Gps)
  }

  /** `city !== area ? city : 'your location'` with `city = parts[1] || parts[0] || 'your location'`. */
  function CoarseCity(parts: seq<string>, area: string): (r: string)
    requires |parts| >= 1 && area == SegmentArea(parts)
    ensures r != "" && (r != area || area == CitySentinel)
    ensures |parts| >= 2 && parts[0] != "" && parts[1] != "" && parts[1] != parts[0] ==> r == parts[1]
    ensures SegmentCity(parts) == area ==> r == CitySentinel
    ensures SegmentCity(parts) != area ==> r == SegmentCity(parts)
  {
    var city := SegmentCity(parts);
    if city != area then city else CitySentinel
  }

  /** `parts.slice(0, 2).join(', ')`. */
  function FirstTwoJoined(parts: seq<string>): string {
    Join(parts[..if |parts| < 2 then |parts| else 2], Separator)
  }

  /** The last rung: coordinates and sentinels only. */
  function CoordinatesOnly(coords: Coordinates, now: int): (r: UserLocation)
    ensures r.area == AreaSentinel && r.city == CitySentinel && r.country == UnknownCountry
    ensures r.fullAddress == CoordinatesOnlyAddress && r.state == None
    ensures r.coordinates == Some(coords) && r.source == Gps && r.lastUpdated == now
  {
    UserLocation(AreaSentinel, CitySentinel, None, UnknownCountry, CoordinatesOnlyAddress, Some(coords), now, Gps)
  }

  /** A one-segment display name with no surrounding blanks becomes the area and the whole address. */
  lemma CoarseSingleSegment(displayName: string, coords: Coordinates, now: int)
    requires displayName != "" && ',' !in displayName && Trim(displayName) == displayName
    ensures CoarseLocation(displayName, coords, now).area == displayName
    ensures CoarseLocation(displayName, coords, now).fullAddress == displayName
    ensures CoarseLocation(displayName, coords, now).city == CitySentinel
  {
    SplitTrimSingle(displayName);
    var parts := [displayName];
    assert SegmentArea(parts) == displayName;
    assert CoarseCity(parts, displayName) == CitySentinel;
    assert parts[..1] == parts;
    assert FirstTwoJoined(parts) == displayName;
  }

  /** What the device positioning API reports. */
  datatype DeviceOutcome = Unsupported | PositionError | Position(coords: Coordinates)

  /** The parsed JSON of the detailed reverse-geocode call; an empty display name means none. */
  datatype GeocodeReply = GeocodeReply(address: Option<Address>, displayName: string)

  /** An HTTP call that either failed (network, status, unparsable body) or returned a body. */
  datatype Fetch<T> = Failed | Fetched(body: T)

  /** The reverse-geocode calls an attempt makes, in order. */
  datatype GeocodeCall = DetailedCall | CoarseCall

  /** The outcome of `getCurrentLocation`: the location (None asks the user), the calls made and the cache after. */
  datatype Resolution = Resolution(location: Option<UserLocation>, calls: seq<GeocodeCall>, cache: LocationCache)

  /**
   * `getCurrentLocation`: no positioning or a positioning error yields None
   * without any geocode call; otherwise the detailed reply is used when it
   * carries an address, else a non-empty coarse display name, else the
   * coordinates alone. Every resolved location is written to the cache.
   */
  function Resolve(cache: LocationCache, device: DeviceOutcome, detailed: Fetch<GeocodeReply>,
                   coarse: Fetch<string>, now: int): (r: Resolution)
    ensures !device.Position? ==> r.location == None && r.calls == [] && r.cache == cache
    ensures device.Position? ==>
      && r.location.Some?
      && r.cache == SetCached(cache, r.location.value)
      && r.location.value.coordinates == Some(device.coords)
      && r.location.value.source == Gps
      && r.location.value.lastUpdated == now
      && r.location.value.area != "" && r.location.value.city != ""
      && r.location.value.fullAddress != ""
    ensures device.Position? && detailed.Fetched? && detailed.body.address.Some? ==>
      r.calls == [DetailedCall] &&
      r.location == Some(Normalise(detailed.body.address.value, detailed.body.displayName, device.coords, now))
    ensures device.Position? && !(detailed.Fetched? && detailed.body.address.Some?) ==>
      r.calls == [DetailedCall, CoarseCall]
    ensures device.Position? && !(detailed.Fetched? && detailed.body.address.Some?) &&
            coarse.Fetched? && coarse.body != "" ==>
      r.location == Some(CoarseLocation(coarse.body, device.coords, now))
    ensures device.Position? && !(detailed.Fetched? && detailed.body.address.Some?) &&
            !(coarse.Fetched? && coarse.body != "") ==>
      r.location == Some(CoordinatesOnly(device.coords, now))
  {
    match device
    case Unsupported => Resolution(None, [], cache)
    case PositionError => Resolution(None, [], cache)
    case Position(coords) =>
      var (loc, calls) :=
        if detailed.Fetched? && detailed.body.address.Some? then
          (Normalise(detailed.body.address.value, detailed.body.displayName, coords, now), [DetailedCall])
        else if coarse.Fetched? && coarse.body != "" then
          (CoarseLocation(coarse.body, coords, now), [DetailedCall, CoarseCall])
        else
          (CoordinatesOnly(coords, now), [DetailedCall, CoarseCall]);
      Resolution(Some(loc), calls, SetCached(cache, loc))
  }

  /** Once the detailed reply carries an address, the coarse call's outcome is irrelevant. */
  lemma DetailedReplyShadowsCoarse(cache: LocationCache, device: DeviceOutcome, reply: GeocodeReply,
                                   c1: Fetch<string>, c2: Fetch<string>, now: int)
    requires reply.address.Some?
    ensures Resolve(cache, device, Fetched(reply), c1, now) == Resolve(cache, device, Fetched(reply), c2, now)
  {
  }

  /** `createManualLocation`: fields from the trimmed comma-separated parts; the text itself is the address. */
  function CreateManualLocation(text: string, now: int): (r: UserLocation)
    ensures r.fullAddress == text && r.source == Manual && r.coordinates == None && r.lastUpdated == now
    ensures r.area != "" <==> text != ""
    ensures r.country != ""
    ensures var parts := SplitTrim(text, ',');
      && (parts[0] != "" ==> r.area == parts[0])
      && (parts[0] == "" ==> r.area == text)
      && (|parts| >= 2 && parts[1] != "" ==> r.city == parts[1])
      && ((|parts| < 2 || parts[1] == "") ==> r.city == parts[0])
      && (|parts| >= 3 <==> r.state.Some?)
      && (|parts| >= 3 ==> r.state.value == parts[2])
      && (|parts| >= 4 && parts[3] != "" ==> r.country == parts[3])
      && ((|parts| < 4 || parts[3] == "") ==> r.country == UnknownCountry)
  {
    var parts := SplitTrim(text, ',');
    var area := if parts[0] != "" then parts[0] else text;
    var city := if |parts| >= 2 && parts[1] != "" then parts[1] else parts[0];
    var state := if |parts| >= 3 then Some(parts[2]) else None;
    var country := if |parts| >= 4 && parts[3] != "" then parts[3] else UnknownCountry;
    UserLocation(area, city, state, country, text, None, now, Manual)
  }

  /** The parts `formatLocationForDisplay` keeps, in order. */
  function DisplayParts(loc: UserLocation): (r: seq<string>)
    ensures forall k :: 0 <= k < |r| ==> r[k] != ""
    ensures loc.area != "" && loc.area != AreaSentinel ==> r != [] && r[0] == loc.area
  {
    (if loc.area != "" && loc.area != AreaSentinel then [loc.area] else [])
    + (if loc.city != "" && loc.city != loc.area && loc.city != CitySentinel then [loc.city] else [])
    + (if loc.state.Some? && loc.state.value != "" then [loc.state.value] else [])
    + (if loc.country != "" && loc.country != UnknownCountry then [loc.country] else [])
  }

  /** A city equal to the area contributes nothing to the display. */
  lemma CityEqualToAreaIsSuppressed(loc: UserLocation)
    requires loc.city == loc.area
    ensures DisplayParts(loc) == DisplayParts(loc.(city := ""))
  {
  }

  /** `formatLocationForDisplay`: the kept parts joined by ", ", or `fullAddress` when none is kept. */
  function FormatForDisplay(loc: UserLocation): (r: string)
    ensures r != "" <==> DisplayParts(loc) != [] || loc.fullAddress != ""
    ensures DisplayParts(loc) == [] ==> r == loc.fullAddress
    ensures loc.area != "" && loc.area != AreaSentinel ==> StartsWith(r, loc.area)
  {
    var parts := DisplayParts(loc);
    if parts != [] then Join(parts, Separator) else loc.fullAddress
  }

  /** `formatLocationForAPI`: written out separately in the source, it computes the same string. */
  function FormatForApi(loc: UserLocation): (r: string)
    ensures r == FormatForDisplay(loc)
  {
    var parts := []
      + (if loc.area != "" && loc.area != AreaSentinel then [loc.area] else [])
      + (if loc.city != "" && loc.city != loc.area && loc.city != CitySentinel then [loc.city] else [])
      + (if loc.state.Some? && loc.state.value != "" then [loc.state.value] else [])
      + (if loc.country != "" && loc.country != UnknownCountry then [loc.country] else []);
    assert parts == DisplayParts(loc);
    if parts != [] then Join(parts, Separator) else loc.fullAddress
  }

  /** Unless the country component is literally "unknown", a detailed-path record displays as its `fullAddress`. */
  lemma {:induction false} NormalisedDisplaysAsFullAddress(a: Address, displayName: string, coords: Coordinates, now: int)
    requires Component(a, "country") != UnknownCountry
    ensures FormatForDisplay(Normalise(a, displayName, coords, now)) == Normalise(a, displayName, coords, now).fullAddress
  {
    var r := Normalise(a, displayName, coords, now);
    var state := FirstNonEmpty(a, StateKeys);
    assert DisplayParts(r) == GpsAddressParts(r.area, r.city, state, Component(a, "country"));
  }

  /** A comma-free, already trimmed text is a single part of itself. */
  lemma SplitTrimSingle(text: string)
    requires ',' !in text && Trim(text) == text
    ensures SplitTrim(text, ',') == [text]
  {
    assert Split(text, ',') == [text];
  }

  /** A comma-free, already trimmed manual entry displays as itself. */
  lemma {:induction false} ManualDisplayRoundTrip(text: string, now: int)
    requires ',' !in text && Trim(text) == text
    ensures FormatForDisplay(CreateManualLocation(text, now)) == text
  {
    SplitTrimSingle(text);
    var r := CreateManualLocation(text, now);
    assert r == UserLocation(text, text, None, UnknownCountry, text, None, now, Manual);
    AreaOnlyDisplay(r);
  }

  /** A location whose only displayable part is its area shows the area, or else its full address. */
  lemma AreaOnlyDisplay(loc: UserLocation)
    requires loc.city == loc.area && loc.state.None? && loc.country == UnknownCountry
    ensures FormatForDisplay(loc) == if loc.area != "" && loc.area != AreaSentinel then loc.area else loc.fullAddress
  {
    if loc.area != "" && loc.area != AreaSentinel {
      assert DisplayParts(loc) == [loc.area];
    } else {
      assert DisplayParts(loc) == [];
    }
  }

  const HourMs := 1000 * 60 * 60

  /** `isLocationRecent`: the elapsed time in hours, as a real quotient, is under 24. */
  function IsLocationRecent(loc: UserLocation, now: int): (r: bool)
    ensures r <==> now - loc.lastUpdated < 24 * HourMs
  {
    var hoursDiff := (now - loc.lastUpdated) as real / (HourMs as real);
    hoursDiff < 24.0
  }

  /** The single-slot cache of the last resolved or saved location. */
  datatype LocationCache = LocationCache(slot: Option<UserLocation>)

  const EmptyCache := LocationCache(None)

  /** `getCachedLocation`. */
  function GetCached(c: LocationCache): Option<UserLocation> {
    c.slot
  }

  /** `setCachedLocation`: unconditional overwrite. */
  function SetCached(c: LocationCache, loc: UserLocation): (r: LocationCache)
    ensures GetCached(r) == Some(loc)
  {
    LocationCache(Some(loc))
  }

  /** `clearCache`. */
  function ClearCache(c: LocationCache): (r: LocationCache)
    ensures GetCached(r) == None
  {
    LocationCache(None)
  }

  /** Last write wins: an earlier set leaves no trace. */
  lemma SetOverwrites(c: LocationCache, a: UserLocation, b: UserLocation)
    ensures SetCached(SetCached(c, a), b) == SetCached(c, b)
  {
  }

  /**
   * `saveUserLocation`: the profile write happens first; the cache takes the
   * location only when that write succeeded, and a failure is reported.
   */
  function SaveUserLocation(c: LocationCache, loc: UserLocation, persisted: bool): (r: (LocationCache, bool))
    ensures r.1 == persisted
    ensures persisted ==> GetCached(r.0) == Some(loc)
    ensures !persisted ==> r.0 == c
  {
    if persisted then (SetCached(c, loc), true) else (c, false)
  }
}

=== FILE: phone_format.dfy ===
/** `formatPhoneForWaMe`: a phone number reduced to its digits, as `wa.me` links need. */
module PhoneFormat {
  import opened Wrappers
  import opened Text
  import Seqs

  /** `s.replace(/\D/g, "")`: every character that is not an ASCII digit removed. */
  function Digits(s: string): (r: string)
    ensures AllDigits(r)
    ensures |r| <= |s|
    ensures AllDigits(s) ==> r == s
    decreases |s|
  {
    if |s| == 0 then ""
    else (if IsDigit(s[0]) then [s[0]] else "") + Digits(s[1..])
  }

  /** Digit extraction is the order-preserving filter on `IsDigit`. */
  lemma {:induction false} DigitsIsFilter(s: string)
    ensures Digits(s) == Seqs.Filter(s, IsDigit)
    decreases |s|
  {
    if |s| > 0 {
      DigitsIsFilter(s[1..]);
    }
  }

  /** Digit extraction distributes over concatenation. */
  lemma {:induction false} DigitsAppend(a: string, b: string)
    ensures Digits(a + b) == Digits(a) + Digits(b)
    decreases |a|
  {
    if |a| == 0 {
      assert a + b == b;
    } else {
      assert (a + b)[0] == a[0];
      assert (a + b)[1..] == a[1..] + b;
      DigitsAppend(a[1..], b);
    }
  }

  /** A string without digits has none to extract. */
  lemma {:induction false} DigitsOfNonDigits(s: string)
    requires forall k :: 0 <= k < |s| ==> !IsDigit(s[k])
    ensures Digits(s) == ""
    decreases |s|
  {
    if |s| > 0 {
      DigitsOfNonDigits(s[1..]);
    }
  }

  /** Behind a digit-free prefix, a run of digits is extracted whole, followed by the digits of the rest. */
  lemma DigitsAfterPrefix(prefix: string, run: string, rest: string)
    requires forall k :: 0 <= k < |prefix| ==> !IsDigit(prefix[k])
    requires AllDigits(run)
    ensures Digits(prefix + (run + rest)) == run + Digits(rest)
  {
    DigitsAppend(prefix, run + rest);
    DigitsAppend(run, rest);
    DigitsOfNonDigits(prefix);
  }

  /** Extracting twice changes nothing. */
  lemma DigitsIdempotent(s: string)
    ensures Digits(Digits(s)) == Digits(s)
  {
  }

  /** `formatPhoneForWaMe`: a missing or empty number gives "", anything else its digits. */
  function FormatPhoneForWaMe(phone: Option<string>): (r: string)
    ensures AllDigits(r)
    ensures phone.None? ==> r == ""
    ensures phone.Some? ==> r == Digits(phone.value) && |r| <= |phone.value|
  {
    if phone.None? || phone.value == "" then "" else Digits(phone.value)
  }
}

=== FILE: profile_screen.dfy ===
/**
 * The profile screen's editing state: collapsible sections, the edit-mode
 * guard, connected-account toggles, change tracking against the last saved
 * baseline, save, cancel, and the password form's checks.
 *
 * Toasts are recorded by title only; their timers and ids are left out.
 */
module ProfileScreen {

  datatype Profile = Profile(
    name: string,
    email: string,
    phone: string,
    accountType: string,
    avatar: string,
    address: string,
    radiusKm: int)

  datatype Accounts = Accounts(google: bool, facebook: bool)

  datatype AccountKey = Google | Facebook

  datatype Snapshot = Snapshot(profile: Profile, accounts: Accounts)

  datatype Screen = Screen(
    profile: Profile,
    accounts: Accounts,
    baseline: Snapshot,
    editing: bool,
    saving: bool,
    toasts: seq<string>)

  const ProfileSection := "Profile"
  const AccountsSection := "Accounts"
  const EnableEditToast := "Enable Edit Mode"
  const SavingToast := "Saving changes..."
  const SavedToast := "Profile Updated"
  const SaveFailedToast := "Save Failed"
  const RevertedToast := "Reverted"

  /** Expanded flags per section key; a key never toggled reads as collapsed. */
  type Expanded = map<string, bool>

  predicate IsExpanded(m: Expanded, key: string) {
    key in m && m[key]
  }

  const InitialExpanded: Expanded := map["personal" := true, "location" := false, "accounts" := true]

  /** `toggleExpand`: flips one section and leaves the others alone. */
  function ToggleExpand(m: Expanded, key: string): (r: Expanded)
    ensures r.Keys == m.Keys + {key}
    ensures IsExpanded(r, key) <==> !IsExpanded(m, key)
    ensures forall k :: k != key ==> (IsExpanded(r, k) <==> IsExpanded(m, k))
  {
    m[key := !IsExpanded(m, key)]
  }

  /** Toggling a section twice shows every section as before. */
  lemma ToggleExpandTwice(m: Expanded, key: string, k: string)
    ensures IsExpanded(ToggleExpand(ToggleExpand(m, key), key), k) <==> IsExpanded(m, k)
  {
  }

  function Name(key: AccountKey): string {
    match key
    case Google => "Google"
    case Facebook => "Facebook"
  }

  function IsConnected(a: Accounts, key: AccountKey): bool {
    match key
    case Google => a.google
    case Facebook => a.facebook
  }

  function Flip(a: Accounts, key: AccountKey): (r: Accounts)
    ensures IsConnected(r, key) == !IsConnected(a, key)
    ensures forall other :: other != key ==> IsConnected(r, other) == IsConnected(a, other)
  {
    match key
    case Google => a.(google := !a.google)
    case Facebook => a.(facebook := !a.facebook)
  }

  /** The toggle that `toggleAccount` performs once its delay has passed, with its two toasts. */
  function ToggleNow(s: Screen, key: AccountKey): (r: Screen)
    ensures IsConnected(r.accounts, key) == !IsConnected(s.accounts, key)
    ensures forall other :: other != key ==> IsConnected(r.accounts, other) == IsConnected(s.accounts, other)
    ensures r == s.(accounts := r.accounts, toasts := r.toasts)
    ensures |r.toasts| == |s.toasts| + 2 && r.toasts[..|s.toasts|] == s.toasts
    ensures IsConnected(s.accounts, key) ==>
      r.toasts[|s.toasts|..] == ["Disconnecting " + Name(key) + "...", Name(key) + " Disconnected!"]
    ensures !IsConnected(s.accounts, key) ==>
      r.toasts[|s.toasts|..] == ["Connecting " + Name(key) + "...", Name(key) + " Connected!"]
  {
    var was := IsConnected(s.accounts, key);
    var starting := (if was then "Disconnecting " else "Connecting ") + Name(key) + "...";
    var finished := Name(key) + (if was then " Disconnected!" else " Connected!");
    s.(accounts := Flip(s.accounts, key), toasts := s.toasts + [starting, finished])
  }

  /** `guardEdit` applied to `toggleAccount`: outside edit mode only a hint toast appears. */
  function ToggleAccount(s: Screen, key: AccountKey): (r: Screen)
    ensures !s.editing ==> r == s.(toasts := s.toasts + [EnableEditToast])
    ensures s.editing ==> IsConnected(r.accounts, key) == !IsConnected(s.accounts, key)
    ensures s.editing ==> r.profile == s.profile && r.baseline == s.baseline && r.editing
    ensures s.editing ==> r == ToggleNow(s, key)
    ensures forall other :: other != key ==> IsConnected(r.accounts, other) == IsConnected(s.accounts, other)
  {
    if !s.editing then s.(toasts := s.toasts + [EnableEditToast])
    else ToggleNow(s, key)
  }

  /** Toggling an account twice in edit mode restores the accounts. */
  lemma ToggleAccountTwice(s: Screen, key: AccountKey)
    requires s.editing
    ensures ToggleAccount(ToggleAccount(s, key), key).accounts == s.accounts
  {
  }

  /** Whether the profile differs from the baseline in any field other than the address. */
  function HasProfileChanged(s: Screen): (r: bool)
    ensures r <==> (
      || s.profile.name != s.baseline.profile.name
      || s.profile.email != s.baseline.profile.email
      || s.profile.phone != s.baseline.profile.phone
      || s.profile.accountType != s.baseline.profile.accountType
      || s.profile.avatar != s.baseline.profile.avatar
      || s.profile.radiusKm != s.baseline.profile.radiusKm)
  {
    s.profile.(address := "") != s.baseline.profile.(address := "")
  }

  function HasAccountsChanged(s: Screen): (r: bool)
    ensures r <==> s.accounts.google != s.baseline.accounts.google || s.accounts.facebook != s.baseline.accounts.facebook
  {
    s.accounts != s.baseline.accounts
  }

  /** The unsaved sections, in display order. */
  function DirtySections(s: Screen): (r: seq<string>)
    ensures (ProfileSection in r <==> HasProfileChanged(s)) && (AccountsSection in r <==> HasAccountsChanged(s))
    ensures r == [] <==> !HasProfileChanged(s) && !HasAccountsChanged(s)
    ensures |r| == 2 ==> r == [ProfileSection, AccountsSection]
  {
    (if HasProfileChanged(s) then [ProfileSection] else []) +
    (if HasAccountsChanged(s) then [AccountsSection] else [])
  }

  predicate IsDirty(s: Screen) {
    |DirtySections(s)| > 0
  }

  /** Editing only the address does not make the screen dirty. */
  lemma AddressEditIsNotDirty(s: Screen, address: string)
    requires s.profile == s.baseline.profile && s.accounts == s.baseline.accounts
    ensures !IsDirty(s.(profile := s.profile.(address := address)))
  {
  }

  /**
   * `handleSave`: nothing happens unless there are changes and a user;
   * after the profile write (`written`) succeeds the current values become
   * the baseline and edit mode ends; a failed write keeps everything else.
   */
  function HandleSave(s: Screen, hasUser: bool, written: bool): (r: Screen)
    ensures !IsDirty(s) || !hasUser ==> r == s
    ensures IsDirty(s) && hasUser ==> !r.saving && r.profile == s.profile && r.accounts == s.accounts
    ensures IsDirty(s) && hasUser && written ==>
      !IsDirty(r) && !r.editing && r.baseline == Snapshot(s.profile, s.accounts)
      && r.toasts == s.toasts + [SavingToast, SavedToast]
    ensures IsDirty(s) && hasUser && !written ==>
      IsDirty(r) && r.editing == s.editing && r.baseline == s.baseline
      && r.toasts == s.toasts + [SavingToast, SaveFailedToast]
  {
    if !IsDirty(s) || !hasUser then s
    else if written then
      s.(baseline := Snapshot(s.profile, s.accounts), saving := false, editing := false,
         toasts := s.toasts + [SavingToast, SavedToast])
    else
      s.(saving := false, toasts := s.toasts + [SavingToast, SaveFailedToast])
  }

  /** `handleCancel`: the baseline is restored, so nothing is left unsaved. */
  function HandleCancel(s: Screen): (r: Screen)
    ensures !IsDirty(r) && !r.editing
    ensures r.baseline == s.baseline && r.profile == s.baseline.profile && r.accounts == s.baseline.accounts
    ensures r.toasts == s.toasts + [RevertedToast]
  {
    s.(profile := s.baseline.profile, accounts := s.baseline.accounts, editing := false,
       toasts := s.toasts + [RevertedToast])
  }

  datatype PasswordForm = PasswordForm(current: string, next: string, confirm: string)

  datatype PasswordOutcome = PasswordError(message: string) | PasswordChanged

  const FillAllFields := "Fill all fields"
  const PasswordsDiffer := "Passwords do not match"

  /** `submitPassword`: missing fields are reported before a mismatch. */
  function SubmitPassword(f: PasswordForm): (r: PasswordOutcome)
    ensures r == PasswordChanged <==> f.current != "" && f.next != "" && f.next == f.confirm
    ensures f.current == "" || f.next == "" ==> r == PasswordError(FillAllFields)
    ensures f.current != "" && f.next != "" && f.next != f.confirm ==> r == PasswordError(PasswordsDiffer)
  {
    if f.current == "" || f.next == "" then PasswordError(FillAllFields)
    else if f.next != f.confirm then PasswordError(PasswordsDiffer)
    else PasswordChanged
  }
}

=== FILE: saved_providers.dfy ===
/**
 * The saved-providers screen: loading the caller's saved businesses,
 * filtering them by category and search text, ordering them most recently
 * saved first, removing one, and the empty-state title.
 */
module SavedProviders {
  import opened Wrappers
  import opened Text
  import opened Seqs
  import opened Businesses

  const AllCategories := "All"
  const NoMatchTitle := "No matching providers"
  const NothingSavedTitle := "Nothing Saved"

  /** The category filter: "All", or the same category up to case. */
  predicate InCategory(p: Business, category: string) {
    category == AllCategories || Lower(p.category) == Lower(category)
  }

  /** The search filter: an empty search, or a case-insensitive hit in name, category or description. */
  predicate MatchesSearch(p: Business, search: string) {
    search == "" ||
    Contains(Lower(p.name), Lower(search)) ||
    Contains(Lower(p.category), Lower(search)) ||
    Contains(Lower(p.description), Lower(search))
  }

  /** The sort key of the "recent" order: the save time, or 0 when there is none. */
  function SavedKey(p: Business): int {
    p.savedAt.GetOr(0)
  }

  predicate SortedByRecency(s: seq<Business>) {
    SortedDescending(s, SavedKey)
  }

  /** The comparator `b - a` on save times, as a stable sort: newest first, ties in list order. */
  function SortRecent(s: seq<Business>): (r: seq<Business>)
    ensures SortedByRecency(r)
    ensures multiset(r) == multiset(s)
  {
    SortDescending(s, SavedKey)
  }

  /** The providers that pass the category filter and then the search filter, in list order. */
  function Visible(providers: seq<Business>, category: string, search: string): (r: seq<Business>)
    ensures multiset(r) <= multiset(providers)
    ensures forall k :: 0 <= k < |r| ==> InCategory(r[k], category) && MatchesSearch(r[k], search)
    ensures forall k :: 0 <= k < |providers| && InCategory(providers[k], category) && MatchesSearch(providers[k], search)
              ==> providers[k] in r
    ensures forall k :: 0 <= k < |providers| && InCategory(providers[k], category) && MatchesSearch(providers[k], search)
              ==> multiset(r)[providers[k]] == multiset(providers)[providers[k]]
  {
    var byCategory := Filter(providers, (p: Business) => InCategory(p, category));
    var r := Filter(byCategory, (p: Business) => MatchesSearch(p, search));
    forall x ensures x in r <==> x in providers && InCategory(x, category) && MatchesSearch(x, search) {
      FilterMember(providers, (p: Business) => InCategory(p, category), x);
      FilterMember(byCategory, (p: Business) => MatchesSearch(p, search), x);
    }
    r
  }

  /** Elements of a sequence that has the same multiset as another are elements of that one. */
  lemma SameMembers(a: seq<Business>, b: seq<Business>)
    requires multiset(a) == multiset(b)
    ensures forall k :: 0 <= k < |a| ==> a[k] in b
    ensures forall k :: 0 <= k < |b| ==> b[k] in a
  {
    forall k | 0 <= k < |a| ensures a[k] in b {
      assert a[k] in multiset(a);
    }
    forall k | 0 <= k < |b| ensures b[k] in a {
      assert b[k] in multiset(b);
    }
  }

  /**
   * The visible list with the "recent" order: the providers that pass both
   * filters, newest first.
   */
  function Filtered(providers: seq<Business>, category: string, search: string): (r: seq<Business>)
    ensures SortedByRecency(r)
    ensures multiset(r) <= multiset(providers)
    ensures forall k :: 0 <= k < |r| ==> InCategory(r[k], category) && MatchesSearch(r[k], search)
    ensures forall k :: 0 <= k < |providers| && InCategory(providers[k], category) && MatchesSearch(providers[k], search)
              ==> providers[k] in r
    ensures forall k :: 0 <= k < |providers| && InCategory(providers[k], category) && MatchesSearch(providers[k], search)
              ==> multiset(r)[providers[k]] == multiset(providers)[providers[k]]
  {
    var visible := Visible(providers, category, search);
    var r := SortRecent(visible);
    SameMembers(r, visible);
    r
  }

  /** With no filters in force, the screen shows every saved provider. */
  lemma NoFiltersShowsAll(providers: seq<Business>)
    ensures multiset(Filtered(providers, AllCategories, "")) == multiset(providers)
  {
    FilterAll(providers, (p: Business) => InCategory(p, AllCategories));
    FilterAll(providers, (p: Business) => MatchesSearch(p, ""));
  }

  /** The list the screen holds and whether it is still loading. */
  datatype Screen = Screen(providers: seq<Business>, loading: bool)

  /**
   * `loadSavedProviders`: without a user only the spinner stops; a read
   * failure shows the empty list; otherwise the fetched list is shown.
   */
  function LoadSavedProviders(s: Screen, user: Option<string>, fetched: Result<seq<Business>, ReadError>): (r: Screen)
    ensures !r.loading
    ensures user.None? ==> r.providers == s.providers
    ensures user.Some? && fetched.Err? ==> r.providers == []
    ensures user.Some? && fetched.Ok? ==> r.providers == fetched.value
  {
    if user.None? then s.(loading := false)
    else if fetched.Err? then Screen([], false)
    else Screen(fetched.value, false)
  }

  /** Loading through `getSavedBusinesses` shows what the caller saved, with the same ids. */
  lemma LoadShowsSavedDocuments(s: Screen, uid: string, docs: seq<(string, SavedDoc)>, now: int)
    requires uid != ""
    ensures var r := LoadSavedProviders(s, Some(uid), GetSavedBusinesses(Some(uid), uid, docs, now));
      |r.providers| == |docs| && forall k :: 0 <= k < |docs| ==> r.providers[k].id == docs[k].0
  {
  }

  /**
   * `removeProvider`: without a user nothing happens; otherwise the stored
   * save is deleted and, only if that succeeds, dropped from the list.
   */
  function RemoveProvider(providers: seq<Business>, store: Store, user: Option<string>, saveId: string): (r: (seq<Business>, Store))
    ensures user.None? ==> r == (providers, store)
    ensures user.Some? && UnsaveBusiness(store, user, user.value, saveId).Err? ==> r == (providers, store)
    ensures user.Some? && UnsaveBusiness(store, user, user.value, saveId).Ok? ==>
      && r.1 == UnsaveBusiness(store, user, user.value, saveId).value
      && r.1.Keys == store.Keys - {saveId}
      && (forall id :: id in r.1 ==> r.1[id] == store[id])
      && (forall k :: 0 <= k < |r.0| ==> r.0[k].id != saveId)
      && (forall k :: 0 <= k < |providers| && providers[k].id != saveId ==> providers[k] in r.0)
      && IsSubsequence(r.0, providers)
  {
    if user.None? then (providers, store)
    else match UnsaveBusiness(store, user, user.value, saveId)
      case Err(_) => (providers, store)
      case Ok(after) => (Filter(providers, (p: Business) => p.id != saveId), after)
  }

  /** The empty-state heading: filters in force say "No matching providers". */
  function EmptyStateTitle(search: string, category: string): (r: string)
    ensures r == NoMatchTitle <==> search != "" || category != AllCategories
    ensures r == NothingSavedTitle <==> search == "" && category == AllCategories
  {
    if search != "" || category != AllCategories then NoMatchTitle else NothingSavedTitle
  }
}

=== FILE: seqs.dfy ===
/** Order-preserving filtering of sequences (`Array.prototype.filter`). */
module Seqs {

  /** `a` is `b` with some elements dropped, order kept. */
  predicate IsSubsequence<T(==)>(a: seq<T>, b: seq<T>)
    decreases |b|
  {
    if |a| == 0 then true
    else if |b| == 0 then false
    else if a[0] == b[0] then IsSubsequence(a[1..], b[1..])
    else IsSubsequence(a, b[1..])
  }

  /** `s.filter(p)`: exactly the elements satisfying `p`, in their original order. */
  function Filter<T(==)>(s: seq<T>, p: T -> bool): (r: seq<T>)
    ensures |r| <= |s|
    ensures forall k :: 0 <= k < |r| ==> p(r[k])
    ensures forall k :: 0 <= k < |s| && p(s[k]) ==> s[k] in r
    ensures multiset(r) <= multiset(s)
    ensures forall k :: 0 <= k < |s| && p(s[k]) ==> multiset(r)[s[k]] == multiset(s)[s[k]]
    ensures IsSubsequence(r, s)
    decreases |s|
  {
    if |s| == 0 then []
    else
      var rest := Filter(s[1..], p);
      var r := if p(s[0]) then [s[0]] + rest else rest;
      FilterStep(s, p, rest, r);
      r
  }

  /** One step of Filter: keeping or dropping the head preserves every property of the filtered tail. */
  lemma FilterStep<T>(s: seq<T>, p: T -> bool, rest: seq<T>, r: seq<T>)
    requires |s| > 0
    requires |rest| <= |s[1..]|
    requires forall k :: 0 <= k < |rest| ==> p(rest[k])
    requires multiset(rest) <= multiset(s[1..])
    requires forall k :: 0 <= k < |s[1..]| && p(s[1..][k]) ==> multiset(rest)[s[1..][k]] == multiset(s[1..])[s[1..][k]]
    requires IsSubsequence(rest, s[1..])
    requires r == if p(s[0]) then [s[0]] + rest else rest
    ensures |r| <= |s|
    ensures forall k :: 0 <= k < |r| ==> p(r[k])
    ensures forall k :: 0 <= k < |s| && p(s[k]) ==> s[k] in r
    ensures multiset(r) <= multiset(s)
    ensures forall k :: 0 <= k < |s| && p(s[k]) ==> multiset(r)[s[k]] == multiset(s)[s[k]]
    ensures IsSubsequence(r, s)
  {
    assert s == [s[0]] + s[1..];
    if p(s[0]) {
      assert r[1..] == rest;
      forall k | 0 <= k < |r|
        ensures p(r[k])
      {
        if k > 0 { assert r[k] == rest[k - 1]; }
      }
    } else {
      assert rest == [] || rest[0] != s[0];
    }
    FilterStepCounts(s, p, rest, r);
  }

  /** One step of Filter keeps the count of every element that satisfies the predicate. */
  lemma FilterStepCounts<T>(s: seq<T>, p: T -> bool, rest: seq<T>, r: seq<T>)
    requires |s| > 0 && multiset(rest) <= multiset(s[1..])
    requires forall k :: 0 <= k < |s[1..]| && p(s[1..][k]) ==> multiset(rest)[s[1..][k]] == multiset(s[1..])[s[1..][k]]
    requires r == if p(s[0]) then [s[0]] + rest else rest
    ensures multiset(r) <= multiset(s)
    ensures forall k :: 0 <= k < |s| && p(s[k]) ==> multiset(r)[s[k]] == multiset(s)[s[k]]
    ensures forall k :: 0 <= k < |s| && p(s[k]) ==> s[k] in r
  {
    assert s == [s[0]] + s[1..];
    assert multiset(s) == multiset{s[0]} + multiset(s[1..]);
    forall k | 0 <= k < |s| && p(s[k])
      ensures multiset(r)[s[k]] == multiset(s)[s[k]]
    {
      if s[k] != s[0] {
        assert s[k] == s[1..][k - 1];
      } else if s[0] in s[1..] {
        var j :| 0 <= j < |s[1..]| && s[1..][j] == s[0];
      }
    }
    forall k | 0 <= k < |s| && p(s[k])
      ensures s[k] in r
    {
      assert s[k] in multiset(r);
    }
  }

  /** A value occurs in a filtered sequence exactly when it occurs in the input and satisfies the predicate. */
  lemma FilterMember<T>(s: seq<T>, p: T -> bool, x: T)
    ensures x in Filter(s, p) <==> x in s && p(x)
  {
    var r := Filter(s, p);
    if x in r {
      var k :| 0 <= k < |r| && r[k] == x;
      assert x in multiset(r);
    }
  }

  /** Filtering keeps every element exactly when the predicate holds throughout. */
  lemma {:induction false} FilterAll<T>(s: seq<T>, p: T -> bool)
    requires forall k :: 0 <= k < |s| ==> p(s[k])
    ensures Filter(s, p) == s
    decreases |s|
  {
    if |s| > 0 {
      FilterAll(s[1..], p);
    }
  }

  /** Each element's key is at least that of every later element. */
  predicate SortedDescending<T>(s: seq<T>, key: T -> int) {
    forall i, j :: 0 <= i < j < |s| ==> key(s[i]) >= key(s[j])
  }

  /** Inserts `x` before the first element whose key does not exceed its own. */
  function InsertDescending<T>(x: T, s: seq<T>, key: T -> int): (r: seq<T>)
    requires SortedDescending(s, key)
    ensures SortedDescending(r, key)
    ensures multiset(r) == multiset(s) + multiset{x}
    ensures |r| == |s| + 1 && (r[0] == x || (|s| > 0 && r[0] == s[0]))
    decreases |s|
  {
    if |s| == 0 then [x]
    else if key(s[0]) <= key(x) then [x] + s
    else
      var rest := InsertDescending(x, s[1..], key);
      assert s == [s[0]] + s[1..];
      assert key(s[0]) >= key(rest[0]);
      var r := [s[0]] + rest;
      assert multiset(r) == multiset{s[0]} + multiset(rest);
      assert SortedDescending(r, key) by {
        forall i, j | 0 <= i < j < |r|
          ensures key(r[i]) >= key(r[j])
        {
          assert r[j] == rest[j - 1];
          if i > 0 {
            assert r[i] == rest[i - 1];
          }
        }
      }
      r
  }

  /**
   * A stable sort by descending key (`sort((a, b) => key(b) - key(a))`):
   * an element is placed ahead of the later elements whose key does not
   * exceed its own.
   */
  function SortDescending<T>(s: seq<T>, key: T -> int): (r: seq<T>)
    ensures SortedDescending(r, key)
    ensures multiset(r) == multiset(s)
    decreases |s|
  {
    if |s| == 0 then []
    else
      assert s == [s[0]] + s[1..];
      InsertDescending(s[0], SortDescending(s[1..], key), key)
  }
}

=== FILE: text.dfy ===
/**
 * String helpers with the semantics of the JavaScript built-ins the source
 * uses: `trim`, `split(',')`, `join`, `toLowerCase` (ASCII letters only),
 * `includes`, `startsWith`, and the decimal rendering of a non-negative
 * integer inside a template literal.
 */
module Text {

  /** The characters `String.prototype.trim` removes: JavaScript's WhiteSpace and LineTerminator. */
  predicate IsSpace(c: char) {
    || c == ' ' || c == '\t' || c == '\n' || c == '\r' || c == '\U{B}' || c == '\U{C}'
    || c == '\U{A0}' || c == '\U{FEFF}' || c == '\U{1680}'
    || ('\U{2000}' <= c <= '\U{200A}')
    || c == '\U{2028}' || c == '\U{2029}' || c == '\U{202F}' || c == '\U{205F}' || c == '\U{3000}'
  }

  predicate AllSpace(s: string) {
    forall k :: 0 <= k < |s| ==> IsSpace(s[k])
  }

  /** Drops leading white space. */
  function TrimStart(s: string): (r: string)
    ensures |r| <= |s| && r == s[|s| - |r|..]
    ensures r == [] || !IsSpace(r[0])
    ensures r == [] <==> AllSpace(s)
    decreases |s|
  {
    if |s| > 0 && IsSpace(s[0]) then
      var r := TrimStart(s[1..]);
      assert AllSpace(s[1..]) ==> AllSpace(s) by {
        if AllSpace(s[1..]) {
          forall k | 0 <= k < |s| ensures IsSpace(s[k]) {
            if k > 0 { assert s[k] == s[1..][k - 1]; }
          }
        }
      }
      r
    else s
  }

  /** Drops trailing white space. */
  function TrimEnd(s: string): (r: string)
    ensures |r| <= |s| && r == s[..|r|]
    ensures r == [] || !IsSpace(r[|r| - 1])
    ensures r == [] <==> AllSpace(s)
    decreases |s|
  {
    if |s| > 0 && IsSpace(s[|s| - 1]) then
      var r := TrimEnd(s[..|s| - 1]);
      assert AllSpace(s[..|s| - 1]) ==> AllSpace(s) by {
        if AllSpace(s[..|s| - 1]) {
          forall k | 0 <= k < |s| ensures IsSpace(s[k]) {
            if k < |s| - 1 { assert s[k] == s[..|s| - 1][k]; }
          }
        }
      }
      r
    else s
  }

  /** `s.trim()`: the longest infix of `s` that neither starts nor ends with white space. */
  function Trim(s: string): (r: string)
    ensures |r| <= |s|
    ensures r == [] || (!IsSpace(r[0]) && !IsSpace(r[|r| - 1]))
    ensures r == [] <==> AllSpace(s)
  {
    var t := TrimStart(s);
    var r := TrimEnd(t);
    assert t != [] ==> !AllSpace(t);
    assert r != [] ==> r[0] == t[0];
    r
  }

  /** TrimStart cuts off white space only. */
  lemma {:induction false} TrimStartCutsSpace(s: string)
    ensures AllSpace(s[..|s| - |TrimStart(s)|])
    decreases |s|
  {
    if |s| > 0 && IsSpace(s[0]) {
      var n := |s| - |TrimStart(s)|;
      TrimStartCutsSpace(s[1..]);
      assert s[1..][..n - 1] == s[1..n];
      forall k | 0 <= k < n
        ensures IsSpace(s[..n][k])
      {
        if k > 0 {
          assert s[..n][k] == s[1..n][k - 1];
        }
      }
    }
  }

  /** TrimEnd cuts off white space only. */
  lemma {:induction false} TrimEndCutsSpace(s: string)
    ensures AllSpace(s[|TrimEnd(s)|..])
    decreases |s|
  {
    if |s| > 0 && IsSpace(s[|s| - 1]) {
      var m := |TrimEnd(s)|;
      TrimEndCutsSpace(s[..|s| - 1]);
      assert s[..|s| - 1][m..] == s[m..|s| - 1];
      forall k | 0 <= k < |s| - m
        ensures IsSpace(s[m..][k])
      {
        if k < |s| - 1 - m {
          assert s[m..][k] == s[m..|s| - 1][k];
        }
      }
    }
  }

  /**
   * `trim` removes white space only: its result is the piece of `s` that
   * starts after the leading white space, and everything cut off on either
   * side of it is white space.
   */
  lemma {:induction false} TrimCutsOnlySpace(s: string)
    ensures var r := Trim(s);
      var i := |s| - |TrimStart(s)|;
      && i + |r| <= |s|
      && (forall k :: 0 <= k < |r| ==> r[k] == s[i + k])
      && AllSpace(s[..i]) && AllSpace(s[i + |r|..])
  {
    var t := TrimStart(s);
    var r := TrimEnd(t);
    assert Trim(s) == r;
    assert AllSpace(s[..|s| - |t|]) by { TrimStartCutsSpace(s); }
    assert AllSpace(t[|r|..]) by { TrimEndCutsSpace(t); }
    CutBothEnds(s, t, r);
  }

  /** A prefix of a suffix of `s`, with white space cut off on both sides, is an infix of `s` between white space. */
  lemma CutBothEnds(s: string, t: string, r: string)
    requires |t| <= |s| && t == s[|s| - |t|..] && AllSpace(s[..|s| - |t|])
    requires |r| <= |t| && r == t[..|r|] && AllSpace(t[|r|..])
    ensures var i := |s| - |t|;
      && i + |r| <= |s|
      && (forall k :: 0 <= k < |r| ==> r[k] == s[i + k])
      && AllSpace(s[..i]) && AllSpace(s[i + |r|..])
  {
    var i := |s| - |t|;
    forall k | 0 <= k < |r|
      ensures r[k] == s[i + k]
    {
      assert r[k] == t[k];
    }
    assert s[i + |r|..] == t[|r|..];
  }

  /** A string with no white space at either end is its own trim. */
  lemma TrimOfTrimmed(s: string)
    requires s == [] || (!IsSpace(s[0]) && !IsSpace(s[|s| - 1]))
    ensures Trim(s) == s
  {
  }

  /** `s.split(sep)` for a one-character separator: the maximal separator-free runs, in order. */
  function Split(s: string, sep: char): (parts: seq<string>)
    ensures |parts| >= 1
    ensures forall k :: 0 <= k < |parts| ==> sep !in parts[k]
    ensures sep !in s ==> parts == [s]
    decreases |s|
  {
    if |s| == 0 then [""]
    else
      var rest := Split(s[1..], sep);
      assert s == [s[0]] + s[1..];
      if s[0] == sep then [""] + rest
      else [[s[0]] + rest[0]] + rest[1..]
  }

  /** `parts.join(sep)`. */
  function Join(parts: seq<string>, sep: string): (r: string)
    ensures |parts| == 1 ==> r == parts[0]
    ensures |parts| >= 1 ==> |r| >= |parts[0]| && r[..|parts[0]|] == parts[0]
    decreases |parts|
  {
    if |parts| == 0 then ""
    else if |parts| == 1 then parts[0]
    else parts[0] + sep + Join(parts[1..], sep)
  }

  /** Prefixing the first part of a list prefixes its join. */
  lemma JoinPrepend(a: string, parts: seq<string>, sep: string)
    requires |parts| >= 1
    ensures Join([a + parts[0]] + parts[1..], sep) == a + Join(parts, sep)
  {
    var extended := [a + parts[0]] + parts[1..];
    if |parts| > 1 {
      assert extended[1..] == parts[1..];
      assert Join(extended, sep) == (a + parts[0]) + sep + Join(parts[1..], sep);
    }
  }

  /** Splitting on a character and joining back on it gives the original string. */
  lemma {:induction false} JoinSplit(s: string, sep: char)
    ensures Join(Split(s, sep), [sep]) == s
    decreases |s|
  {
    if |s| > 0 {
      var rest := Split(s[1..], sep);
      JoinSplit(s[1..], sep);
      assert s == [s[0]] + s[1..];
      if s[0] == sep {
        assert Split(s, sep) == [""] + rest;
        assert ([""] + rest)[1..] == rest;
        assert Join([""] + rest, [sep]) == "" + [sep] + Join(rest, [sep]);
      } else {
        assert Split(s, sep) == [[s[0]] + rest[0]] + rest[1..];
        JoinPrepend([s[0]], rest, [sep]);
      }
    }
  }

  /** `split` followed by `map(part => part.trim())`. */
  function SplitTrim(s: string, sep: char): (parts: seq<string>)
    ensures |parts| == |Split(s, sep)| >= 1
    ensures forall k :: 0 <= k < |parts| ==> parts[k] == Trim(Split(s, sep)[k])
  {
    var raw := Split(s, sep);
    seq(|raw|, k requires 0 <= k < |raw| => Trim(raw[k]))
  }

  /** `toLowerCase` on one character, restricted to ASCII letters. */
  function LowerChar(c: char): char {
    if 'A' <= c <= 'Z' then (c as int + 32) as char else c
  }

  /** `s.toLowerCase()`, restricted to ASCII letters. */
  function Lower(s: string): (r: string)
    ensures |r| == |s|
    ensures forall k :: 0 <= k < |s| ==> r[k] == LowerChar(s[k])
  {
    seq(|s|, k requires 0 <= k < |s| => LowerChar(s[k]))
  }

  lemma LowerAppend(a: string, b: string)
    ensures Lower(a + b) == Lower(a) + Lower(b)
  {
  }

  predicate OccursAt(s: string, sub: string, i: int) {
    0 <= i && i + |sub| <= |s| && s[i..i + |sub|] == sub
  }

  /** `s.includes(sub)`: `sub` occurs at some position of `s`. */
  predicate Contains(s: string, sub: string)
    decreases |s|
  {
    OccursAt(s, sub, 0) || (|s| > 0 && Contains(s[1..], sub))
  }

  /** `Contains` holds exactly when some position of `s` starts an occurrence of `sub`. */
  lemma {:induction false} ContainsAt(s: string, sub: string)
    ensures Contains(s, sub) <==> exists i :: 0 <= i <= |s| - |sub| && OccursAt(s, sub, i)
    decreases |s|
  {
    if |s| > 0 {
      var tail := s[1..];
      ContainsAt(tail, sub);
      if Contains(tail, sub) {
        var i :| 0 <= i <= |tail| - |sub| && OccursAt(tail, sub, i);
        assert s[i + 1..i + 1 + |sub|] == tail[i..i + |sub|];
        assert OccursAt(s, sub, i + 1);
      }
      if exists i :: 0 <= i <= |s| - |sub| && OccursAt(s, sub, i) {
        var i :| 0 <= i <= |s| - |sub| && OccursAt(s, sub, i);
        if i > 0 {
          assert tail[i - 1..i - 1 + |sub|] == s[i..i + |sub|];
          assert OccursAt(tail, sub, i - 1);
        }
      }
    }
  }

  /** `s.startsWith(p)`. */
  predicate StartsWith(s: string, p: string) {
    |p| <= |s| && s[..|p|] == p
  }

  predicate IsDigit(c: char) {
    '0' <= c <= '9'
  }

  predicate AllDigits(s: string) {
    forall k :: 0 <= k < |s| ==> IsDigit(s[k])
  }

  function DigitChar(d: nat): (c: char)
    requires d < 10
    ensures IsDigit(c)
  {
    ('0' as int + d) as char
  }

  function DigitValue(c: char): nat
    requires IsDigit(c)
  {
    (c as int - '0' as int) as nat
  }

  /** The decimal rendering of `n` inside a template literal: `${n}`. */
  function NatToString(n: nat): (r: string)
    ensures |r| >= 1 && AllDigits(r)
    ensures r[0] == '0' ==> n == 0
  {
    if n < 10 then [DigitChar(n)]
    else NatToString(n / 10) + [DigitChar(n % 10)]
  }

  /** Reads a string of decimal digits back as a number. */
  function ParseDigits(s: string): nat
    requires AllDigits(s)
  {
    if |s| == 0 then 0
    else ParseDigits(s[..|s| - 1]) * 10 + DigitValue(s[|s| - 1])
  }

  /** The decimal rendering is read back as the number it renders. */
  lemma {:induction false} ParseNatToString(n: nat)
    ensures ParseDigits(NatToString(n)) == n
  {
    var r := NatToString(n);
    if n >= 10 {
      ParseNatToString(n / 10);
      assert r[..|r| - 1] == NatToString(n / 10);
    }
  }

  /** Different numbers render differently. */
  lemma NatToStringInjective(m: nat, n: nat)
    requires NatToString(m) == NatToString(n)
    ensures m == n
  {
    ParseNatToString(m);
    ParseNatToString(n);
  }
}

=== FILE: wrappers.dfy ===
/** Failure-compatible wrappers shared by every module of the model. */
module Wrappers {

  /** A value that may be absent: TypeScript's `T | undefined` / `T | null`. */
  datatype Option<+T> = None | Some(value: T) {

    /** The value, or `default` when absent (TypeScript's `x ?? default`). */
    function GetOr(default: T): T {
      match this
      case Some(v) => v
      case None => default
    }
  }

  /** Either a value or the error a rejected promise carries. */
  datatype Result<+R, +E> = Ok(value: R) | Err(error: E)
}
